=== FILE: README.md ===
# Settings merge of the login-hook extension installer

When the authentication extension is reinstalled, `hook.js` reads two specs
from the server: the old global and instance configuration specs (if the
extension was installed before) and the freshly generated ones. It then
copies selected values from old to new before it writes the new specs back.
This project models that merge as pure functions on the lines of a spec, and
proves what the merge promises.

The merge follows these rules:

- For Service-URL, Auth-Protocol, enable-logging, name-identifier and user-identifier, a value that is empty or starts with an ellipsis (`...`) is a placeholder. It is not carried over.
- ExtP4USER carries any old value except the sample user `sampleExtensionsUser`, placeholders included.
- Service-URL falls back to the service base URL.
- enable-logging falls back to `true`.
- Auth-Protocol falls back to `AUTH_PROTOCOL`. It is left alone unless that variable is set and non-empty.
- name-identifier and user-identifier are left alone when nothing usable exists.
- ExtP4USER keeps any old value except the sample user.
- The two exemption lists are copied by `extractList`, entries verbatim. non-sso-users falls back to the installing user alone.
- An old spec that lacks a field makes the installer throw, which aborts the installation.

The project also models `normalizePort` and `getPort` of the mock
authentication service (`test/www.js`). `parseInt(val, 10)` is modelled as
section 19.2.5 of ECMA-262 defines it.

Modules:

- `Results` (`results.dfy`): Option, Result, and JavaScript truthiness of optional strings.
- `Text` (`text.dfy`): `split('\n')` and `join('\n')`, and that they are inverse.
- `SpecLines` (`spec_lines.dfy`): the installer's regular expressions as line patterns. It has the leftmost match, `match[1]`, and the non-global `replace` for field, key and list rewrites.
- `SpecFrames` (`spec_frames.dfy`): a rewrite keeps the leftmost match and capture of every other field. A written value reads back as written.
- `ListFrames` (`list_frames.dfy`): a written list stays under its header while other fields and lists are rewritten.
- `Hook` (`hook.dfy`): the setters, `extractList`, and the two pipelines of `hook.js`.
- `HookProperties` (`hook_properties.dfy`): what each pipeline does, as a whole, to the new spec.
- `Substitution` (`substitution.dfy`): `replace` as hook.js calls it, with `$` patterns expanded, for field, key and list writes (see Findings).
- `Www` (`www.dfy`): `getPort`, `parseInt` with radix 10, and `normalizePort`.

A spec is the sequence of lines produced by `split('\n')`. Each regular
expression becomes a `Pattern`:

| regular expression | pattern |
|---|---|
| `/^ExtP4USER:\t(.*)$/m` | `KeyLine` |
| `/^\t<field>:\n\t\t(.*)$/m` | `FieldValue` |
| `/^\t<field>:\n.*$/m` | `ListHead` |

The `findIndex` tests of `extractList` are `ExactLine` and `NotValueLine`.
The environment (`P4USER`, `AUTH_PROTOCOL`, `AUTH_URL`, `PORT`) enters as
parameters.

Two facts of the code are worth stating on their own:

- **Ellipsis values.** An ellipsis-prefixed value of Service-URL, Auth-Protocol, enable-logging, name-identifier or user-identifier in the old spec is not carried: the default or the new spec's text wins (hook.js:20-23, 261, 275, 286, 296, 306). ExtP4USER is tested only against the sample user (hook.js:250-251), so an ellipsis-prefixed or empty old user is carried. Ellipsis-prefixed list entries are carried verbatim, because `extractList` does not filter them.
- **User key.** The installing user is kept under the top-level key `ExtP4USER` (hook.js:246-255).

## Model

| member | source | states |
|---|---|---|
| Hook.InstallerEnv | hook.js:34-45 | `P4USER` and `AUTH_URL` are used when set and non-empty, else `super` and `https://localhost:3000`. `AUTH_PROTOCOL` is passed through unset or not. The user and base URL are never empty. |
| Hook.OldSpecLines | hook.js:248 | An old spec counts exactly when its text is non-empty. Its lines are one or more single lines that join back to exactly that text, so with `Text.SplitJoin` they are the pieces of `split('\n')`. |
| Hook.Chosen | hook.js:273-278 | Throws exactly when an old spec lacks the field, naming the field. Otherwise yields the old value if usable, else the fallback. |
| Hook.SetExtP4User | hook.js:246-255 | Throws exactly when an old spec lacks `ExtP4USER`. Writes the installing user for a fresh install or when the old value is `sampleExtensionsUser`. Otherwise writes the old value, with no placeholder check. Only that one line changes. |
| Hook.SetAuthProtocol | hook.js:257-269 | Throws exactly when an old spec lacks Auth-Protocol. Writes the usable old value, else `protocol` if it is set and non-empty. Otherwise the spec is returned unchanged. |
| Hook.SetServiceUrl | hook.js:271-280 | Throws exactly when an old spec lacks Service-URL. Writes the usable old value, else the base URL. Only that one value line changes. |
| Hook.SetEnableLogging | hook.js:282-291 | Throws exactly when an old spec lacks enable-logging. Writes the usable old value, else `true`. |
| Hook.SetNameIdentifier | hook.js:293-301 | Throws exactly when an old spec lacks name-identifier. Writes the usable old value, else leaves the new spec unchanged. |
| Hook.SetUserIdentifier | hook.js:303-311 | Throws exactly when an old spec lacks user-identifier. Writes the usable old value, else leaves the new spec unchanged. |
| Hook.FindIndex | hook.js:336-338 | -1 exactly when no line passes the test. Otherwise exactly the index of the leftmost line that does. |
| Hook.SliceEnd | hook.js:345 | `slice(0, end)` clamps `end` to the length. A negative `end` counts from the back, floored at 0. |
| Hook.ExtractList | hook.js:334-350 | `extractList` on the lines of a spec. Its contract is carried by `Hook.ExtractListRun`, `Hook.RunEnd` and `Hook.TakeRunIsRun` below. |
| Hook.RunEnd | hook.js:341-343 | The first line not starting with two tabs ends the maximal run of value lines. There is none exactly when every line is a value line. |
| Hook.TakeRunIsRun | hook.js:340-346 | After the header, the maximal run of value lines is returned when a non-value line ends it. An empty run yields nothing. A run reaching the end loses its last line. Only value lines are returned. |
| Hook.ExtractListRun | hook.js:334-350 | Nothing for a header on line 0. Nothing when the run of value lines after the header is empty. Otherwise exactly that run. A run reaching the end loses its last line. With no header, the scan starts at line 0. The result holds value lines only. |
| Hook.SetNonSsoUsers | hook.js:313-322 | Replaces the first non-sso-users header and the one line after it by the header and the found old list, else the single entry `\t\t<p4user>`. Later lines stay in order after the inserted entries. |
| Hook.SetNonSsoGroups | hook.js:324-332 | Replaces the header's next line by the found old list, with later lines kept. With no list found, the new spec is unchanged. |
| Hook.SetGlobalConfig | hook.js:168-171 | Fails exactly when an old spec lacks one of ExtP4USER, Service-URL or Auth-Protocol. The error names the first such field in pipeline order. It never fails on a fresh install. |
| Hook.SetInstanceConfig | hook.js:199-204 | Fails exactly when an old spec lacks enable-logging, name-identifier or user-identifier. The error names the first in pipeline order. The lists never fail. It never fails on a fresh install. |
| Text.JoinSplit | hook.js:335 | Joining the pieces of `split('\n')` with line feeds gives back the original text. |
| Text.Split | hook.js:335 | `split('\n')` yields at least one piece, and no piece contains a line feed. |
| Text.Join | hook.js:346 | `join('\n')` of a single line is that line. With `Text.JoinSplit` and `Text.SplitJoin` it is the inverse of `split('\n')`. |
| Text.SplitJoin | hook.js:346 | Splitting one or more lines joined by `join('\n')` gives back those lines, when none contains a line feed. |
| SpecLines.FindFrom | hook.js:249 | The leftmost match at or after a line: it matches, and no earlier line does. None means no line matches. |
| SpecLines.FirstCapture | hook.js:260 | `match[1]`: None exactly when there is no match, which is when hook.js throws. Otherwise a key capture is the rest of the matched line after `<key>:\t`, and a field capture is the rest of the value line after its two tabs. |
| SpecLines.ReplaceFirst | hook.js:279 | `text.replace(re, replacement)` for a non-global pattern and a replacement without `$`. Its contract is carried by `SpecLines.ReplaceFirstSplices` below. |
| SpecLines.ReplaceFirstSplices | hook.js:279 | A non-global `replace` with a plain replacement: without a match the lines are unchanged. Otherwise the lines before the match are kept, the replacement lines follow, then the lines after the match, and the length changes accordingly. `SpecLines.WriteField`, `SpecLines.WriteKey` and `SpecLines.WriteList` build on this. |
| SpecLines.First | hook.js:260 | The leftmost match of a pattern, as `String.prototype.match` finds it for a non-global regular expression. |
| SpecLines.WriteField | hook.js:279 | Sets exactly the value line after the first `\t<field>:` header that has one. Every other line and the line count are unchanged. Nothing changes when no header qualifies. |
| SpecLines.WriteKey | hook.js:254 | Sets exactly the first `<key>:\t` line. Every other line is unchanged. |
| SpecLines.WriteList | hook.js:321 | Replaces exactly the line after the first header by the entries. The lines before and after keep their order. |
| SpecFrames.FieldWrittenIsWrite | hook.js:279 | The line-by-line description of a field write determines the result. |
| SpecFrames.WriteFieldKeeps | hook.js:279 | Writing one field keeps the leftmost match and the captured value of every other field and key. |
| SpecFrames.WriteKeyKeeps | hook.js:254 | Writing ExtP4USER keeps the leftmost match and captured value of every field. |
| SpecFrames.WriteListKeeps | hook.js:321 | When the header of the list being written is followed by a value line, writing the list moves later matches down by the added lines and keeps every other field's captured value. |
| SpecFrames.ReadBackField | hook.js:279 | After a field is written, the field reads back as exactly the value written. |
| SpecFrames.ReadBackKey | hook.js:254 | After ExtP4USER is written, it reads back as exactly the value written. |
| SpecFrames.WriteFieldNoop | hook.js:279 | Writing the value a field already holds leaves the spec unchanged. |
| SpecFrames.WriteKeyNoop | hook.js:254 | Writing the value a key already holds leaves the spec unchanged. |
| ListFrames.ReadBackList | hook.js:321 | After a list is written, the entries follow the first header, in order. |
| ListFrames.WriteFieldKeepsList | hook.js:307 | Writing another field leaves a list's entries in place under its header. |
| ListFrames.WriteListKeepsList | hook.js:321 | When the header of the list being written is followed by a value line, writing that list leaves this list's entries in place under its header. |
| ListFrames.WriteListKeepsHead | hook.js:328 | When both headers are followed by value lines, writing one list keeps the other header followed by a value line. |
| HookProperties.UsableIff | hook.js:275 | A value is carried exactly when it is non-empty and does not start with `...`. |
| HookProperties.GlobalConfigReadBack | hook.js:168-171 | After the global pipeline, ExtP4USER and Service-URL read back as the merged values wherever the new spec has them. Auth-Protocol reads back as the merged value if there is one, else as before. The line count is kept. |
| HookProperties.GlobalConfigKeepsFields | hook.js:168-171 | Every field other than Service-URL and Auth-Protocol reads back as it did in the new spec. |
| HookProperties.GlobalConfigIdempotent | hook.js:168-171 | Running the global merge again on its own output, with the same old spec, changes nothing. |
| HookProperties.FoundListShape | hook.js:316-317 | A found list has at least one entry, and every entry starts with two tabs. |
| HookProperties.InstanceConfigReadBack | hook.js:199-204 | After the instance pipeline, enable-logging reads back as the usable old value or `true`. name-identifier and user-identifier read back as the usable old value, or as before. |
| HookProperties.InstanceConfigLists | hook.js:199-204 | After the instance pipeline, the old user list (else the installing user) follows the first non-sso-users header. A found old group list follows the first non-sso-groups header. |
| HookProperties.InstanceConfigKeepsFields | hook.js:199-204 | Every field not owned by the instance pipeline reads back as it did in the new spec. |
| HookProperties.FoundListIsTruthyText | hook.js:316-319 | `if (found)` on the joined text of `extractList` holds exactly when a non-empty list was extracted. That text splits back into the same entries. |
| HookProperties.ExtractListHeaderOnFirstLine | hook.js:336-339 | For every spec whose first line is the field's header, nothing is extracted. |
| HookProperties.ExtractListVerbatim | hook.js:340-346 | After the first header (not on line 0), a non-empty run of value lines ended by another line is returned verbatim: exactly those lines. |
| HookProperties.ExtractListKeepsPlaceholders | hook.js:340-346 | Example: in a spec with the entries `\t\tbruno` and `\t\t... list` under non-sso-users, both are returned, the placeholder included. |
| HookProperties.ExtractListDropsLastAtEnd | hook.js:341-345 | When every line after the first header (not on line 0) is a value line, the result is those lines without the last one, and empty when there are none. |
| HookProperties.ExtractListMissingHeader | hook.js:336-346 | Without the header, a run of value lines at the very start, ended by another line, is returned. |
| Substitution.ReplaceAsWritten | hook.js:279 | `replace` with a non-global pattern and a string template, as hook.js calls it. Nothing changes without a match. Otherwise the lines before the leftmost match and the lines after it are kept, and the lines of the template, expanded with the matched text and the text before and after the match, take its place. |
| Substitution.Expand | hook.js:279 | GetSubstitution of ECMA-262 with no capture groups: `$$` gives `$`, `$&` the matched text, `` $` `` the text before it and `$'` the text after it. Any other `$` is kept. Its properties are `Substitution.ExpandWithoutDollar`, `Substitution.ExpandPrefix` and `Substitution.ExpandDollarPair`. |
| Substitution.WriteFieldAsWritten | hook.js:279 | The field write as the installer performs it: `replace` with the template `\t<field>:\n\t\t${v}`. `Substitution.FieldAsWrittenExpands` relates it to the verbatim write. |
| Substitution.WriteKeyAsWritten | hook.js:254 | The ExtP4USER write as the installer performs it: `replace` with the template `ExtP4USER:\t${v}`. `Substitution.KeyAsWrittenExpands` relates it to the verbatim write. |
| Substitution.WriteListAsWritten | hook.js:321 | The list write as the installer performs it: `replace` with the template `\t<field>:\n${text}`. `Substitution.ListAsWrittenExpands` relates it to the verbatim write. |
| Substitution.ExpandPrefix | hook.js:279 | Expanding a template that starts with `$`-free text keeps that text and expands the rest. |
| Substitution.ExpandWithoutDollar | hook.js:279 | A replacement without `$` is inserted as it is. |
| Substitution.AsWrittenWritesExpansion | hook.js:279 | Where every context expands the template to the same text, `replace` puts the lines of that text in place of the match. |
| Substitution.FieldAsWrittenExpands | hook.js:279 | When the value expands to one and the same single line `w` in every context (the matched text, the text before and the text after), the field write as the installer performs it is the verbatim write of `w`. |
| Substitution.KeyAsWrittenExpands | hook.js:254 | When the value expands to one and the same single line `w` in every context, the ExtP4USER write as the installer performs it is the verbatim write of `w`. |
| Substitution.ListAsWrittenExpands | hook.js:321 | When the list text expands in every context to the join of the same one or more single-line entries, the list write as the installer performs it is the verbatim write of those entries. |
| Substitution.AsWrittenIsVerbatimWithoutDollar | hook.js:279 | For a single-line value without `$`, the installer's field write is the verbatim write. |
| Substitution.KeyAsWrittenIsVerbatimWithoutDollar | hook.js:254 | For a single-line value without `$`, the installer's ExtP4USER write is the verbatim write. |
| Substitution.ListAsWrittenIsVerbatimWithoutDollar | hook.js:321 | For one or more single-line list entries without `$`, the installer's list write of their joined text is the verbatim write of those entries. |
| Substitution.ListAsWrittenEmptyText | hook.js:321 | An empty list text is written by the installer as one empty line under the header, which is the verbatim write of the single entry `""`, not of no entries. |
| Substitution.DollarPairExpands | hook.js:279 | `p$$q` expands to `p$q` in every context, which differs from `p$$q`. |
| Substitution.DollarPairCollapses | hook.js:279 | The installer writes a carried field value `p$$q` as `p$q`. It then reads back differently from the value carried, while the verbatim write reads back `p$$q`. |
| Substitution.KeyDollarPairCollapses | hook.js:254 | The installer writes a carried ExtP4USER value `p$$q` as `p$q`, while the verbatim write reads back `p$$q`. |
| Substitution.ListDollarPairCollapses | hook.js:321 | The installer writes a carried list entry `\t\tp$$q` as `\t\tp$q` under the header, while the verbatim write puts the carried entry there. |
| Substitution.ServiceUrlDollarExample | hook.js:279 | Example: a Service-URL of `a$$b` is written back as `a$b`. |
| Www.GetPort | test/www.js:37-42 | `PORT` when set and non-empty, else `'3000'`. Never empty. |
| Www.TrimStart | test/www.js:45 | Removes exactly the leading white space of ECMA-262: what is removed is white space, and what is left does not start with it. |
| Www.DigitPrefix | test/www.js:45 | The longest run of decimal digits at the start. |
| Www.ParseInt10 | test/www.js:45-46 | `parseInt(val, 10)` is NaN exactly when, after leading white space, there is neither a digit nor a sign followed by a digit. A negative result needs a leading minus sign after the white space. |
| Www.ParseSkipsWhiteSpace | test/www.js:45 | Leading white space does not change the result. |
| Www.DecimalValue | test/www.js:45 | A decimal numeral denotes the number it was written for. |
| Www.ParseDecimal | test/www.js:45 | `parseInt` reads a numeral back as its number, whatever non-digit text follows. |
| Www.ParseNegativeDecimal | test/www.js:45 | `parseInt` reads `-` and a numeral as the negated number. |
| Www.NormalizePort | test/www.js:44-53 | The original string exactly when `parseInt` is NaN. A number only when `parseInt` gives it and it is non-negative. `false` only for a negative result. Never a negative number. |
| Www.NormalizeDecimal | test/www.js:49-51 | A decimal port, with or without trailing text, is that port number. |
| Www.NormalizeNegative | test/www.js:49-52 | A negative number is refused (`false`). |
| Www.DefaultPortIs3000 | test/www.js:37-42 | With `PORT` unset, the service listens on port 3000. |
| Www.PipePathKept | test/www.js:46-48 | A path such as `/tmp/auth.sock` is returned as the string. |

## Left out

- Process plumbing is not modelled: `main`, packaging, install and delete, fetching specs, writing them back through `p4` and restarting the server. These are child-process I/O.
- The catch in `main` (hook.js:78-80) appears only as the `Err` result of the pipelines.
- The login decision engine, the mock service's HTTP handling, and the server start-up in `test/www.js` are not part of this model.
- The regular expressions are modelled only for the patterns the installer uses. The spec text is assumed to contain no carriage return, U+2028 or U+2029. With those, JavaScript's `^`, `$` and `.` would see line ends the lines here do not.
- Environment values that contain a line feed are not modelled, because the model writes values as single lines.
- Hook.ExtractList: its contract is stated by the lemmas `Hook.ExtractListRun` and `Hook.RunEnd` rather than on the function itself.
- Hook.SetExtP4User, Hook.SetAuthProtocol, Hook.SetServiceUrl, Hook.SetEnableLogging, Hook.SetNameIdentifier, Hook.SetUserIdentifier, Hook.SetNonSsoUsers, Hook.SetNonSsoGroups, Hook.SetGlobalConfig, Hook.SetInstanceConfig: these write carried values verbatim through the `SpecLines` writes. For a value containing `$`, the installer writes something else (see Findings). The `Substitution` module models the installer's writes for all three kinds of write, and its lemmas state where the two agree and where they differ.
- SpecFrames.WriteListKeeps, ListFrames.WriteListKeepsList: these assume that the header of the list being written is followed by a value line. Without that, hook.js:321 and hook.js:328 replace the header's next line whatever it is, which may be another header.
- SpecLines.ReplaceFirst: its contract is stated by `SpecLines.ReplaceFirstSplices` rather than on the function itself.
- Substitution.Expand, Substitution.WriteFieldAsWritten, Substitution.WriteKeyAsWritten, Substitution.WriteListAsWritten: these carry no contract of their own. What the three writes do is stated by the lemmas named in their rows. Of `Expand`, the lemmas state the `$`-free, `$`-free-prefix and `$$` cases; the `$&`, `` $` `` and `$'` cases rest on its body alone.
- Substitution.FieldAsWrittenExpands, Substitution.KeyAsWrittenExpands: a value whose expansion depends on the context (one using `$&`, `` $` `` or `$'`) is not related to any verbatim write. Such a value can even add lines, since `$'` brings in the rest of the spec. `Substitution.ReplaceAsWritten` still states what is written for it.
- Substitution.ListAsWrittenExpands: the same context-dependent list texts are left out. The entries must also be one or more lines, because `WriteList` of no entries drops the line that an empty text keeps (see `Substitution.ListAsWrittenEmptyText`). hook.js never writes an empty list text: the found list is written only when truthy, and the default users entry is `\t\t<p4user>`.
- Substitution.ListAsWrittenIsVerbatimWithoutDollar: no entries at all is left out, for the reason given for `Substitution.ListAsWrittenExpands`.
- SpecLines.WriteField, SpecLines.WriteKey, SpecLines.WriteList: these insert values verbatim. They do not expand JavaScript's `$` patterns, so they are the corrected behaviour (see Findings). `Substitution.WriteFieldAsWritten`, `Substitution.WriteKeyAsWritten` and `Substitution.WriteListAsWritten` model the installer's behaviour.
- HookProperties.InstanceConfigReadBack, HookProperties.InstanceConfigLists, HookProperties.InstanceConfigKeepsFields: these assume that each list header of the new spec, where present, is followed by an entry. A generated spec has this. Without it a list write could swallow the next header.
- The instance pipeline is not idempotent. A found list replaces only the one line after the header, so a second run would insert the list again ahead of the first copy. This is modelled as it is, and no idempotence is claimed.
- Www.NormalizePort: numbers are exact integers. Double precision, the 20-significant-digit allowance of ECMA-262, and the distinction between `-0` and `0` are not modelled. `-0` yields port 0 here, where `normalizePort` returns the number `-0`.

## Findings

| source | as written | input that shows it | evidently intended | confidence | as-written member | corrected member |
|---|---|---|---|---|---|---|
| hook.js:279 (and 266, 290, 297, 307) | The carried field value is interpolated into the replacement string of `String.prototype.replace`, which expands `$$`, `$&`, `` $` `` and `$'` | An old Service-URL `a$$b` is written to the new spec as `a$b` | The old value is copied verbatim, so it reads back unchanged | medium; not executed | Substitution.DollarPairCollapses | SpecFrames.ReadBackField |
| hook.js:254 | The carried ExtP4USER value is interpolated into the replacement string, so `$` patterns in it are expanded | An old ExtP4USER `a$$b` is written as `a$b` | The old user is copied verbatim | medium; not executed | Substitution.KeyDollarPairCollapses | SpecFrames.ReadBackKey |
| hook.js:321 (and 328) | The joined old list is interpolated into the replacement string, so `$` patterns in its entries are expanded | An old non-sso-users entry `\t\ta$$b` is written as `\t\ta$b` | The old entries are copied verbatim | medium; not executed | Substitution.ListDollarPairCollapses | ListFrames.ReadBackList |

=== FILE: hook.dfy ===
/**
 * The settings merge of the extension installer: when the extension is
 * reinstalled, selected values of the old global and instance configuration
 * specs are copied into the freshly generated ones. Values that start with an
 * ellipsis are placeholders and are not carried over; defaults fill in where
 * nothing usable exists.
 */
module Hook {
  import opened Results
  import opened Text
  import opened SpecLines

  // ---------------------------------------------------------------------------
  // Constants of the installer

  const DefaultP4User: string := "super"
  const DefaultServiceUrl: string := "https://localhost:3000"
  /** The placeholder user of a freshly generated global spec. */
  const SampleUser: string := "sampleExtensionsUser"
  const DefaultEnableLogging: string := "true"
  /** Values starting with this are placeholders. */
  const Ellipsis: string := "..."

  const ExtP4UserKey: string := "ExtP4USER"
  const AuthProtocolField: string := "Auth-Protocol"
  const ServiceUrlField: string := "Service-URL"
  const EnableLoggingField: string := "enable-logging"
  const NameIdentifierField: string := "name-identifier"
  const UserIdentifierField: string := "user-identifier"
  const NonSsoUsersField: string := "non-sso-users"
  const NonSsoGroupsField: string := "non-sso-groups"

  /**
   * The installer's only failure of its own: an old spec lacking a field,
   * so that the match is null and reading `match[1]` throws a TypeError.
   */
  datatype InstallError = FieldMissing(name: string)

  /** The settings the installer takes from its environment. */
  datatype Env = Env(p4user: string, protocol: Option<string>, baseUrl: string)

  /** The environment variables P4USER, AUTH_PROTOCOL and AUTH_URL, each possibly unset. */
  function InstallerEnv(p4userVar: Option<string>, authProtocolVar: Option<string>, authUrlVar: Option<string>): (e: Env)
    ensures e.p4user != "" && e.baseUrl != ""
    ensures Truthy(p4userVar) ==> e.p4user == p4userVar.value
    ensures !Truthy(p4userVar) ==> e.p4user == DefaultP4User
    ensures e.protocol == authProtocolVar
    ensures Truthy(authUrlVar) ==> e.baseUrl == authUrlVar.value
    ensures !Truthy(authUrlVar) ==> e.baseUrl == DefaultServiceUrl
  {
    Env(OrElse(p4userVar, DefaultP4User), authProtocolVar, OrElse(authUrlVar, DefaultServiceUrl))
  }

  /** `if (oldConfig)`: an old spec that is missing or empty is no old spec at all. */
  function OldSpecLines(text: Option<string>): (r: Option<seq<string>>)
    ensures r.Some? <==> Truthy(text)
    ensures r.Some? ==> Join(r.value) == text.value
    ensures r.Some? ==> |r.value| >= 1 && AreLines(r.value)
  {
    if Truthy(text) then
      JoinSplit(text.value);
      Some(Split(text.value))
    else None
  }

  // ---------------------------------------------------------------------------
  // The placeholder rule

  /** `value.slice(0, 3) !== '...'` together with the truthiness test of `value`. */
  predicate Usable(value: string)
  {
    value != "" && value[..if |value| < 3 then |value| else 3] != Ellipsis
  }

  /** The value of `field` in the old spec when it is there and usable. */
  function Carried(oldSpec: Option<seq<string>>, field: string): Option<string>
  {
    if oldSpec.None? then None
    else
      match FirstCapture(oldSpec.value, FieldValue(field))
      case None => None
      case Some(v) => if Usable(v) then Some(v) else None
  }

  /** The old spec exists but has no match for `p`: reading `match[1]` throws. */
  predicate Missing(oldSpec: Option<seq<string>>, p: Pattern)
    requires Captures(p)
  {
    oldSpec.Some? && FirstCapture(oldSpec.value, p).None?
  }

  /**
   * The value to write for `field`: the old usable value, else `fallback`;
   * an error when the old spec lacks the field.
   */
  function Chosen(oldSpec: Option<seq<string>>, field: string, fallback: Option<string>): (r: Result<Option<string>, InstallError>)
    ensures r.Err? <==> Missing(oldSpec, FieldValue(field))
    ensures r.Err? ==> r.error == FieldMissing(field)
    ensures r.Ok? && Carried(oldSpec, field).Some? ==> r.value == Carried(oldSpec, field)
    ensures r.Ok? && Carried(oldSpec, field).None? ==> r.value == fallback
  {
    if oldSpec.None? then Ok(fallback)
    else
      match FirstCapture(oldSpec.value, FieldValue(field))
      case None => Err(FieldMissing(field))
      case Some(v) => Ok(if Usable(v) then Some(v) else fallback)
  }

  /** Copy-or-default for a field that is always rewritten (Service-URL, enable-logging). */
  function MergeWithDefault(oldSpec: Option<seq<string>>, newSpec: seq<string>, field: string, fallback: string): (r: Result<seq<string>, InstallError>)
    ensures r.Err? <==> Missing(oldSpec, FieldValue(field))
    ensures r.Err? ==> r.error == FieldMissing(field)
    ensures r.Ok? ==> FieldWritten(newSpec, r.value, field, Carried(oldSpec, field).GetOr(fallback))
  {
    var chosen :- Chosen(oldSpec, field, Some(fallback));
    Ok(WriteField(newSpec, field, chosen.GetOr(fallback)))
  }

  /** Copy-or-leave for a field with no default of its own. */
  function CopyIfUsable(oldSpec: Option<seq<string>>, newSpec: seq<string>, field: string): (r: Result<seq<string>, InstallError>)
    ensures r.Err? <==> Missing(oldSpec, FieldValue(field))
    ensures r.Err? ==> r.error == FieldMissing(field)
    ensures r.Ok? && Carried(oldSpec, field).Some? ==> FieldWritten(newSpec, r.value, field, Carried(oldSpec, field).value)
    ensures r.Ok? && Carried(oldSpec, field).None? ==> r.value == newSpec
  {
    var chosen :- Chosen(oldSpec, field, None);
    if chosen.Some? then Ok(WriteField(newSpec, field, chosen.value)) else Ok(newSpec)
  }

  // ---------------------------------------------------------------------------
  // The setters, one per field

  /**
   * ExtP4USER keeps the old value, whatever it is, unless it is the sample
   * user; otherwise the installing user is written.
   */
  function SetExtP4User(oldSpec: Option<seq<string>>, newSpec: seq<string>, p4user: string): (r: Result<seq<string>, InstallError>)
    ensures r.Err? <==> Missing(oldSpec, KeyLine(ExtP4UserKey))
    ensures r.Err? ==> r.error == FieldMissing(ExtP4UserKey)
    ensures r.Ok? && oldSpec.None? ==> KeyWritten(newSpec, r.value, ExtP4UserKey, p4user)
    ensures r.Ok? && oldSpec.Some? && FirstCapture(oldSpec.value, KeyLine(ExtP4UserKey)) == Some(SampleUser) ==>
              KeyWritten(newSpec, r.value, ExtP4UserKey, p4user)
    ensures r.Ok? && oldSpec.Some? && FirstCapture(oldSpec.value, KeyLine(ExtP4UserKey)) != Some(SampleUser) ==>
              KeyWritten(newSpec, r.value, ExtP4UserKey, FirstCapture(oldSpec.value, KeyLine(ExtP4UserKey)).value)
  {
    if oldSpec.None? then Ok(WriteKey(newSpec, ExtP4UserKey, p4user))
    else
      match FirstCapture(oldSpec.value, KeyLine(ExtP4UserKey))
      case None => Err(FieldMissing(ExtP4UserKey))
      case Some(v) => Ok(WriteKey(newSpec, ExtP4UserKey, if v != SampleUser then v else p4user))
  }

  /** Auth-Protocol: the old usable value, else `protocol`; untouched when that is unset or empty. */
  function SetAuthProtocol(oldSpec: Option<seq<string>>, newSpec: seq<string>, protocol: Option<string>): (r: Result<seq<string>, InstallError>)
    ensures r.Err? <==> Missing(oldSpec, FieldValue(AuthProtocolField))
    ensures r.Err? ==> r.error == FieldMissing(AuthProtocolField)
    ensures r.Ok? && Carried(oldSpec, AuthProtocolField).Some? ==>
              FieldWritten(newSpec, r.value, AuthProtocolField, Carried(oldSpec, AuthProtocolField).value)
    ensures r.Ok? && Carried(oldSpec, AuthProtocolField).None? && Truthy(protocol) ==>
              FieldWritten(newSpec, r.value, AuthProtocolField, protocol.value)
    ensures r.Ok? && Carried(oldSpec, AuthProtocolField).None? && !Truthy(protocol) ==> r.value == newSpec
  {
    var chosen :- Chosen(oldSpec, AuthProtocolField, protocol);
    if Truthy(chosen) then Ok(WriteField(newSpec, AuthProtocolField, chosen.value)) else Ok(newSpec)
  }

  /** Service-URL: the old usable value, else the service base URL. */
  function SetServiceUrl(oldSpec: Option<seq<string>>, newSpec: seq<string>, baseUrl: string): (r: Result<seq<string>, InstallError>)
    ensures r.Err? <==> Missing(oldSpec, FieldValue(ServiceUrlField))
    ensures r.Err? ==> r.error == FieldMissing(ServiceUrlField)
    ensures r.Ok? && Carried(oldSpec, ServiceUrlField).Some? ==>
              FieldWritten(newSpec, r.value, ServiceUrlField, Carried(oldSpec, ServiceUrlField).value)
    ensures r.Ok? && Carried(oldSpec, ServiceUrlField).None? ==> FieldWritten(newSpec, r.value, ServiceUrlField, baseUrl)
  {
    MergeWithDefault(oldSpec, newSpec, ServiceUrlField, baseUrl)
  }

  /** enable-logging: the old usable value, else `true`. */
  function SetEnableLogging(oldSpec: Option<seq<string>>, newSpec: seq<string>): (r: Result<seq<string>, InstallError>)
    ensures r.Err? <==> Missing(oldSpec, FieldValue(EnableLoggingField))
    ensures r.Err? ==> r.error == FieldMissing(EnableLoggingField)
    ensures r.Ok? && Carried(oldSpec, EnableLoggingField).Some? ==>
              FieldWritten(newSpec, r.value, EnableLoggingField, Carried(oldSpec, EnableLoggingField).value)
    ensures r.Ok? && Carried(oldSpec, EnableLoggingField).None? ==>
              FieldWritten(newSpec, r.value, EnableLoggingField, DefaultEnableLogging)
  {
    MergeWithDefault(oldSpec, newSpec, EnableLoggingField, DefaultEnableLogging)
  }

  /** name-identifier: the old usable value, else the new spec as it is. */
  function SetNameIdentifier(oldSpec: Option<seq<string>>, newSpec: seq<string>): (r: Result<seq<string>, InstallError>)
    ensures r.Err? <==> Missing(oldSpec, FieldValue(NameIdentifierField))
    ensures r.Err? ==> r.error == FieldMissing(NameIdentifierField)
    ensures r.Ok? && Carried(oldSpec, NameIdentifierField).Some? ==>
              FieldWritten(newSpec, r.value, NameIdentifierField, Carried(oldSpec, NameIdentifierField).value)
    ensures r.Ok? && Carried(oldSpec, NameIdentifierField).None? ==> r.value == newSpec
  {
    CopyIfUsable(oldSpec, newSpec, NameIdentifierField)
  }

  /** user-identifier: the old usable value, else the new spec as it is. */
  function SetUserIdentifier(oldSpec: Option<seq<string>>, newSpec: seq<string>): (r: Result<seq<string>, InstallError>)
    ensures r.Err? <==> Missing(oldSpec, FieldValue(UserIdentifierField))
    ensures r.Err? ==> r.error == FieldMissing(UserIdentifierField)
    ensures r.Ok? && Carried(oldSpec, UserIdentifierField).Some? ==>
              FieldWritten(newSpec, r.value, UserIdentifierField, Carried(oldSpec, UserIdentifierField).value)
    ensures r.Ok? && Carried(oldSpec, UserIdentifierField).None? ==> r.value == newSpec
  {
    CopyIfUsable(oldSpec, newSpec, UserIdentifierField)
  }

  // ---------------------------------------------------------------------------
  // List-valued fields

  /** `Array.prototype.findIndex` with a single-line test: the first matching index, or -1. */
  function FindIndex(lines: seq<string>, p: Pattern): (r: int)
    requires Width(p) == 1
    ensures r == -1 <==> First(lines, p).None?
    ensures r >= 0 ==> First(lines, p) == Some(r)
    ensures First(lines, p).Some? ==> r == First(lines, p).value
  {
    match First(lines, p)
    case None => -1
    case Some(i) => i
  }

  /** `list.slice(0, end)` for a possibly negative `end`, counted from the back. */
  function SliceEnd(length: nat, end: int): (n: nat)
    ensures n <= length
    ensures end >= 0 ==> n == if end < length then end else length
    ensures end < 0 && length + end >= 0 ==> n == length + end
    ensures end < 0 && length + end < 0 ==> n == 0
  {
    if end >= 0 then (if end < length then end else length)
    else if length + end >= 0 then length + end
    else 0
  }

  /** The lines after the first `\t<field>:` line, or all lines when there is none. */
  function ListRemainder(lines: seq<string>, field: string): seq<string>
  {
    match First(lines, ExactLine(Header(field)))
    case None => lines
    case Some(s) => lines[s + 1..]
  }

  /** `rem[..n]` are value lines and `rem[n]` is the first line that is not. */
  predicate RunEndsAt(rem: seq<string>, n: nat)
  {
    n < |rem| && !IsValueLine(rem[n]) && forall k :: 0 <= k < n ==> IsValueLine(rem[k])
  }

  /**
   * The part of extractList after the header: the lines before the first
   * one that does not start with two tabs, as `findIndex` and `slice` find
   * them. An empty run yields nothing (index 0 is falsy), and a run reaching
   * the last line loses that line (`slice(0, -1)`).
   */
  function TakeRun(remainder: seq<string>): Option<seq<string>>
  {
    var end := FindIndex(remainder, NotValueLine);
    if end == 0 then None
    else Some(remainder[..SliceEnd(|remainder|, end)])
  }

  /**
   * extractList: the value lines after the `\t<field>:` line. A header on the
   * first line yields nothing (index 0 is falsy), and a missing header scans
   * from the first line (index -1 is truthy). The joined text of the result
   * is what `extractList` in hook.js returns.
   */
  function ExtractList(lines: seq<string>, field: string): Option<seq<string>>
  {
    var start := FindIndex(lines, ExactLine(Header(field)));
    if start == 0 then None
    else TakeRun(lines[start + 1..])
  }

  /** The first non-value line ends the maximal run of value lines, and no other line does. */
  lemma RunEnd(rem: seq<string>)
    ensures First(rem, NotValueLine).None? <==> AllValueLines(rem)
    ensures First(rem, NotValueLine).Some? ==> RunEndsAt(rem, First(rem, NotValueLine).value)
    ensures forall n: nat :: RunEndsAt(rem, n) ==> First(rem, NotValueLine) == Some(n)
  {
    forall n: nat | RunEndsAt(rem, n)
      ensures First(rem, NotValueLine) == Some(n)
    {
      FirstIs(rem, NotValueLine, n);
    }
    if First(rem, NotValueLine).None? {
      forall k | 0 <= k < |rem|
        ensures IsValueLine(rem[k])
      {
        assert !MatchesAt(rem, k, NotValueLine);
      }
    } else {
      var e := First(rem, NotValueLine).value;
      forall k | 0 <= k < e
        ensures IsValueLine(rem[k])
      {
        assert !MatchesAt(rem, k, NotValueLine);
      }
    }
  }

  /**
   * The run taken after the header: the maximal leading run of value lines
   * when a non-value line ends it, nothing when that run is empty, and the
   * run without its last line when it reaches the end.
   */
  lemma TakeRunIsRun(rem: seq<string>)
    ensures forall n: nat :: RunEndsAt(rem, n) ==> TakeRun(rem) == if n == 0 then None else Some(rem[..n])
    ensures AllValueLines(rem) ==> TakeRun(rem) == Some(if |rem| == 0 then [] else rem[..|rem| - 1])
    ensures TakeRun(rem).Some? ==> AllValueLines(TakeRun(rem).value)
  {
    RunEnd(rem);
    if First(rem, NotValueLine).Some? {
      var n := First(rem, NotValueLine).value;
      assert TakeRun(rem) == if n == 0 then None else Some(rem[..n]);
    } else {
      assert TakeRun(rem) == Some(if |rem| == 0 then [] else rem[..|rem| - 1]);
    }
  }

  /**
   * extractList, stated without its index arithmetic: nothing for a header on
   * the first line; otherwise, with `rem` the lines after the first header
   * (all lines when there is none), the maximal leading run of value lines of
   * `rem` when a non-value line ends it, nothing when that run is empty, and
   * the run without its last line when it reaches the end of the text.
   */
  lemma {:induction false} ExtractListRun(lines: seq<string>, field: string)
    ensures First(lines, ExactLine(Header(field))) == Some(0) ==> ExtractList(lines, field).None?
    ensures First(lines, ExactLine(Header(field))) != Some(0) ==>
              forall n: nat :: RunEndsAt(ListRemainder(lines, field), n) ==>
                ExtractList(lines, field) == if n == 0 then None else Some(ListRemainder(lines, field)[..n])
    ensures First(lines, ExactLine(Header(field))) != Some(0) && AllValueLines(ListRemainder(lines, field)) ==>
              var rem := ListRemainder(lines, field);
              ExtractList(lines, field) == Some(if |rem| == 0 then [] else rem[..|rem| - 1])
    ensures ExtractList(lines, field).Some? ==> AllValueLines(ExtractList(lines, field).value)
  {
    var start := FindIndex(lines, ExactLine(Header(field)));
    if start != 0 {
      var rem := lines[start + 1..];
      assert rem == ListRemainder(lines, field);
      assert ExtractList(lines, field) == TakeRun(rem);
      TakeRunIsRun(rem);
    }
  }

  /** The list extracted from the old spec, when there is one and it is not empty (`if (found)`). */
  function FoundList(oldSpec: Option<seq<string>>, field: string): Option<seq<string>>
  {
    if oldSpec.None? then None
    else
      match ExtractList(oldSpec.value, field)
      case None => None
      case Some(entries) => if entries != [] then Some(entries) else None
  }

  /** non-sso-users: the old list, else the installing user alone. */
  function SetNonSsoUsers(oldSpec: Option<seq<string>>, newSpec: seq<string>, p4user: string): (r: seq<string>)
    ensures FoundList(oldSpec, NonSsoUsersField).Some? ==>
              ListWritten(newSpec, r, NonSsoUsersField, FoundList(oldSpec, NonSsoUsersField).value)
    ensures FoundList(oldSpec, NonSsoUsersField).None? ==>
              ListWritten(newSpec, r, NonSsoUsersField, [ValueIndent + p4user])
  {
    var users := FoundList(oldSpec, NonSsoUsersField).GetOr([ValueIndent + p4user]);
    WriteList(newSpec, NonSsoUsersField, users)
  }

  /** non-sso-groups: the old list, else the new spec as it is. */
  function SetNonSsoGroups(oldSpec: Option<seq<string>>, newSpec: seq<string>): (r: seq<string>)
    ensures FoundList(oldSpec, NonSsoGroupsField).Some? ==>
              ListWritten(newSpec, r, NonSsoGroupsField, FoundList(oldSpec, NonSsoGroupsField).value)
    ensures FoundList(oldSpec, NonSsoGroupsField).None? ==> r == newSpec
  {
    match FoundList(oldSpec, NonSsoGroupsField)
    case Some(groups) => WriteList(newSpec, NonSsoGroupsField, groups)
    case None => newSpec
  }

  // ---------------------------------------------------------------------------
  // The two pipelines

  /** The global spec: ExtP4USER, then Service-URL, then Auth-Protocol; the first error aborts. */
  function SetGlobalConfig(oldSpec: Option<seq<string>>, newSpec: seq<string>, env: Env): (r: Result<seq<string>, InstallError>)
    ensures r.Err? <==>
              Missing(oldSpec, KeyLine(ExtP4UserKey)) || Missing(oldSpec, FieldValue(ServiceUrlField)) ||
              Missing(oldSpec, FieldValue(AuthProtocolField))
    ensures r.Err? ==>
              r.error == (if Missing(oldSpec, KeyLine(ExtP4UserKey)) then FieldMissing(ExtP4UserKey)
                          else if Missing(oldSpec, FieldValue(ServiceUrlField)) then FieldMissing(ServiceUrlField)
                          else FieldMissing(AuthProtocolField))
    ensures oldSpec.None? ==> r.Ok?
  {
    var withUser :- SetExtP4User(oldSpec, newSpec, env.p4user);
    var withUrl :- SetServiceUrl(oldSpec, withUser, env.baseUrl);
    SetAuthProtocol(oldSpec, withUrl, env.protocol)
  }

  /**
   * The instance spec: enable-logging, name-identifier, non-sso-groups,
   * non-sso-users, user-identifier, in that order; the first error aborts.
   */
  function SetInstanceConfig(oldSpec: Option<seq<string>>, newSpec: seq<string>, env: Env): (r: Result<seq<string>, InstallError>)
    ensures r.Err? <==>
              Missing(oldSpec, FieldValue(EnableLoggingField)) || Missing(oldSpec, FieldValue(NameIdentifierField)) ||
              Missing(oldSpec, FieldValue(UserIdentifierField))
    ensures r.Err? ==>
              r.error == (if Missing(oldSpec, FieldValue(EnableLoggingField)) then FieldMissing(EnableLoggingField)
                          else if Missing(oldSpec, FieldValue(NameIdentifierField)) then FieldMissing(NameIdentifierField)
                          else FieldMissing(UserIdentifierField))
    ensures oldSpec.None? ==> r.Ok?
  {
    var withLogging :- SetEnableLogging(oldSpec, newSpec);
    var withName :- SetNameIdentifier(oldSpec, withLogging);
    var withGroups := SetNonSsoGroups(oldSpec, withName);
    var withUsers := SetNonSsoUsers(oldSpec, withGroups, env.p4user);
    SetUserIdentifier(oldSpec, withUsers)
  }
}

=== FILE: hook_properties.dfy ===
/**
 * What the installer's two pipelines do to a freshly generated spec, stated
 * as what can be read back from the result: each field the pipeline owns
 * holds the carried or default value, every other field reads as before,
 * and running the global pipeline a second time changes nothing.
 */
module HookProperties {
  import opened Results
  import opened Text
  import opened SpecLines
  import opened SpecFrames
  import opened ListFrames
  import opened Hook

  // ---------------------------------------------------------------------------
  // The placeholder rule

  /** A value is carried over exactly when it is non-empty and does not start with an ellipsis. */
  lemma UsableIff(value: string)
    ensures Usable(value) <==> value != "" && !HasPrefix(value, Ellipsis)
  {
    if |value| >= 3 {
      assert HasPrefix(value, Ellipsis) <==> value[..3] == Ellipsis;
    } else {
      assert !HasPrefix(value, Ellipsis);
      assert |value[..|value|]| < |Ellipsis|;
    }
  }

  /** Carried is the first value of the field in the old spec, exactly when that value is usable. */
  lemma CarriedIff(oldSpec: Option<seq<string>>, field: string)
    ensures Carried(oldSpec, field).Some? <==>
              oldSpec.Some? && FirstCapture(oldSpec.value, FieldValue(field)).Some? &&
              Usable(FirstCapture(oldSpec.value, FieldValue(field)).value)
    ensures Carried(oldSpec, field).Some? ==> Carried(oldSpec, field) == FirstCapture(oldSpec.value, FieldValue(field))
  {
  }

  // ---------------------------------------------------------------------------
  // The global spec

  /** The ExtP4USER value the installer settles on: the old one unless it is the sample user. */
  function ExpectedExtUser(oldSpec: Option<seq<string>>, p4user: string): string
    requires !Missing(oldSpec, KeyLine(ExtP4UserKey))
  {
    if oldSpec.None? then p4user
    else if FirstCapture(oldSpec.value, KeyLine(ExtP4UserKey)).value == SampleUser then p4user
    else FirstCapture(oldSpec.value, KeyLine(ExtP4UserKey)).value
  }

  /** The Auth-Protocol value the installer settles on, unset when neither source has one. */
  function ExpectedProtocol(oldSpec: Option<seq<string>>, protocol: Option<string>): Option<string>
  {
    if Carried(oldSpec, AuthProtocolField).Some? then Carried(oldSpec, AuthProtocolField) else protocol
  }

  /** `value` if the spec has a match for `p`, else nothing: what a fresh spec reads as after a write. */
  function IfPresent(lines: seq<string>, p: Pattern, value: string): Option<string>
  {
    if First(lines, p).Some? then Some(value) else None
  }

  /** The three steps of the global pipeline, as plain rewrites of the new spec. */
  lemma GlobalConfigSteps(oldSpec: Option<seq<string>>, newSpec: seq<string>, env: Env)
    requires SetGlobalConfig(oldSpec, newSpec, env).Ok?
    ensures var withUser := WriteKey(newSpec, ExtP4UserKey, ExpectedExtUser(oldSpec, env.p4user));
            var withUrl := WriteField(withUser, ServiceUrlField, Carried(oldSpec, ServiceUrlField).GetOr(env.baseUrl));
            var expected := ExpectedProtocol(oldSpec, env.protocol);
            SetGlobalConfig(oldSpec, newSpec, env).value ==
              if Truthy(expected) then WriteField(withUrl, AuthProtocolField, expected.value) else withUrl
  {
    var u := ExpectedExtUser(oldSpec, env.p4user);
    var a := SetExtP4User(oldSpec, newSpec, env.p4user).value;
    KeyWrittenIsWrite(newSpec, a, ExtP4UserKey, u);
    var url := Carried(oldSpec, ServiceUrlField).GetOr(env.baseUrl);
    var b := SetServiceUrl(oldSpec, a, env.baseUrl).value;
    FieldWrittenIsWrite(a, b, ServiceUrlField, url);
    var c := SetAuthProtocol(oldSpec, b, env.protocol).value;
    var expected := ExpectedProtocol(oldSpec, env.protocol);
    if Truthy(expected) {
      FieldWrittenIsWrite(b, c, AuthProtocolField, expected.value);
    }
  }

  /**
   * After the global pipeline, ExtP4USER, Service-URL and Auth-Protocol read
   * back as the merged values wherever the new spec has them, and the spec
   * keeps its number of lines.
   */
  lemma GlobalConfigReadBack(oldSpec: Option<seq<string>>, newSpec: seq<string>, env: Env)
    requires SetGlobalConfig(oldSpec, newSpec, env).Ok?
    ensures var r := SetGlobalConfig(oldSpec, newSpec, env).value;
            && |r| == |newSpec|
            && FirstCapture(r, KeyLine(ExtP4UserKey)) ==
                 IfPresent(newSpec, KeyLine(ExtP4UserKey), ExpectedExtUser(oldSpec, env.p4user))
            && FirstCapture(r, FieldValue(ServiceUrlField)) ==
                 IfPresent(newSpec, FieldValue(ServiceUrlField), Carried(oldSpec, ServiceUrlField).GetOr(env.baseUrl))
            && (Truthy(ExpectedProtocol(oldSpec, env.protocol)) ==>
                  FirstCapture(r, FieldValue(AuthProtocolField)) ==
                    IfPresent(newSpec, FieldValue(AuthProtocolField), ExpectedProtocol(oldSpec, env.protocol).value))
            && (!Truthy(ExpectedProtocol(oldSpec, env.protocol)) ==>
                  FirstCapture(r, FieldValue(AuthProtocolField)) == FirstCapture(newSpec, FieldValue(AuthProtocolField)))
  {
    GlobalConfigSteps(oldSpec, newSpec, env);
    var u := ExpectedExtUser(oldSpec, env.p4user);
    var url := Carried(oldSpec, ServiceUrlField).GetOr(env.baseUrl);
    var expected := ExpectedProtocol(oldSpec, env.protocol);
    var a := WriteKey(newSpec, ExtP4UserKey, u);
    var b := WriteField(a, ServiceUrlField, url);
    var key := KeyLine(ExtP4UserKey);
    var su := FieldValue(ServiceUrlField);
    var ap := FieldValue(AuthProtocolField);
    // ExtP4USER: written once, then left alone by the two field writes.
    if First(newSpec, key).Some? {
      ReadBackKey(newSpec, ExtP4UserKey, u);
    }
    WriteFieldKeeps(a, ServiceUrlField, url, key);
    // Service-URL: unaffected by the key write, written, then left alone.
    WriteKeyKeeps(newSpec, ExtP4UserKey, u, su);
    if First(a, su).Some? {
      ReadBackField(a, ServiceUrlField, url);
    }
    // Auth-Protocol: unaffected by the first two writes.
    WriteKeyKeeps(newSpec, ExtP4UserKey, u, ap);
    WriteFieldKeeps(a, ServiceUrlField, url, ap);
    if Truthy(expected) {
      WriteFieldKeeps(b, AuthProtocolField, expected.value, key);
      WriteFieldKeeps(b, AuthProtocolField, expected.value, su);
      if First(b, ap).Some? {
        ReadBackField(b, AuthProtocolField, expected.value);
      }
    }
  }

  /** The global pipeline leaves every other field of the new spec reading as it did. */
  lemma GlobalConfigKeepsFields(oldSpec: Option<seq<string>>, newSpec: seq<string>, env: Env, field: string)
    requires SetGlobalConfig(oldSpec, newSpec, env).Ok?
    requires IsName(field) && field != ServiceUrlField && field != AuthProtocolField
    ensures FirstCapture(SetGlobalConfig(oldSpec, newSpec, env).value, FieldValue(field)) ==
              FirstCapture(newSpec, FieldValue(field))
  {
    GlobalConfigSteps(oldSpec, newSpec, env);
    var u := ExpectedExtUser(oldSpec, env.p4user);
    var url := Carried(oldSpec, ServiceUrlField).GetOr(env.baseUrl);
    var expected := ExpectedProtocol(oldSpec, env.protocol);
    var a := WriteKey(newSpec, ExtP4UserKey, u);
    var b := WriteField(a, ServiceUrlField, url);
    var p := FieldValue(field);
    WriteKeyKeeps(newSpec, ExtP4UserKey, u, p);
    WriteFieldKeeps(a, ServiceUrlField, url, p);
    if Truthy(expected) {
      WriteFieldKeeps(b, AuthProtocolField, expected.value, p);
    }
  }

  /** Running the global pipeline again on its own result, with the same old spec, changes nothing. */
  lemma GlobalConfigIdempotent(oldSpec: Option<seq<string>>, newSpec: seq<string>, env: Env)
    requires SetGlobalConfig(oldSpec, newSpec, env).Ok?
    ensures var r := SetGlobalConfig(oldSpec, newSpec, env).value;
            SetGlobalConfig(oldSpec, r, env) == Ok(r)
  {
    var r := SetGlobalConfig(oldSpec, newSpec, env).value;
    GlobalConfigReadBack(oldSpec, newSpec, env);
    GlobalConfigSteps(oldSpec, r, env);
    var u := ExpectedExtUser(oldSpec, env.p4user);
    var url := Carried(oldSpec, ServiceUrlField).GetOr(env.baseUrl);
    var expected := ExpectedProtocol(oldSpec, env.protocol);
    WriteKeyNoop(r, ExtP4UserKey, u);
    WriteFieldNoop(r, ServiceUrlField, url);
    if Truthy(expected) {
      WriteFieldNoop(r, AuthProtocolField, expected.value);
    }
  }

  // ---------------------------------------------------------------------------
  // The instance spec

  /** A found list has at least one entry, and every entry is a value line. */
  lemma FoundListShape(oldSpec: Option<seq<string>>, field: string)
    ensures FoundList(oldSpec, field).Some? ==>
              |FoundList(oldSpec, field).value| >= 1 && AllValueLines(FoundList(oldSpec, field).value)
  {
    if oldSpec.Some? {
      ExtractListRun(oldSpec.value, field);
    }
  }

  /** The old usable value of `field` written into `lines`, or `lines` unchanged. */
  function WriteIfCarried(lines: seq<string>, oldSpec: Option<seq<string>>, field: string): seq<string>
  {
    match Carried(oldSpec, field)
    case Some(v) => WriteField(lines, field, v)
    case None => lines
  }

  /** The entries non-sso-users ends up with: the old list, else the installing user alone. */
  function UsersList(oldSpec: Option<seq<string>>, p4user: string): seq<string>
  {
    FoundList(oldSpec, NonSsoUsersField).GetOr([ValueIndent + p4user])
  }

  /** The old non-sso-groups list written into `lines`, or `lines` unchanged. */
  function WriteGroupsIfFound(lines: seq<string>, oldSpec: Option<seq<string>>): seq<string>
  {
    match FoundList(oldSpec, NonSsoGroupsField)
    case Some(groups) => WriteList(lines, NonSsoGroupsField, groups)
    case None => lines
  }

  /** The spec after the instance pipeline's scalar steps: enable-logging, then name-identifier. */
  function AfterScalars(oldSpec: Option<seq<string>>, newSpec: seq<string>): seq<string>
  {
    var logging := Carried(oldSpec, EnableLoggingField).GetOr(DefaultEnableLogging);
    WriteIfCarried(WriteField(newSpec, EnableLoggingField, logging), oldSpec, NameIdentifierField)
  }

  /** The spec after the instance pipeline's list steps: non-sso-groups, then non-sso-users. */
  function AfterLists(oldSpec: Option<seq<string>>, lines: seq<string>, p4user: string): seq<string>
  {
    WriteList(WriteGroupsIfFound(lines, oldSpec), NonSsoUsersField, UsersList(oldSpec, p4user))
  }

  /** The five steps of the instance pipeline, as plain rewrites of the new spec. */
  lemma InstanceConfigSteps(oldSpec: Option<seq<string>>, newSpec: seq<string>, env: Env)
    requires SetInstanceConfig(oldSpec, newSpec, env).Ok?
    ensures SetInstanceConfig(oldSpec, newSpec, env).value ==
              WriteIfCarried(AfterLists(oldSpec, AfterScalars(oldSpec, newSpec), env.p4user), oldSpec, UserIdentifierField)
  {
    var a := SetEnableLogging(oldSpec, newSpec).value;
    FieldWrittenIsWrite(newSpec, a, EnableLoggingField, Carried(oldSpec, EnableLoggingField).GetOr(DefaultEnableLogging));
    var b := SetNameIdentifier(oldSpec, a).value;
    if Carried(oldSpec, NameIdentifierField).Some? {
      FieldWrittenIsWrite(a, b, NameIdentifierField, Carried(oldSpec, NameIdentifierField).value);
    }
    var c := SetNonSsoGroups(oldSpec, b);
    if FoundList(oldSpec, NonSsoGroupsField).Some? {
      ListWrittenIsWrite(b, c, NonSsoGroupsField, FoundList(oldSpec, NonSsoGroupsField).value);
    }
    var d := SetNonSsoUsers(oldSpec, c, env.p4user);
    ListWrittenIsWrite(c, d, NonSsoUsersField, UsersList(oldSpec, env.p4user));
    var e := SetUserIdentifier(oldSpec, d).value;
    if Carried(oldSpec, UserIdentifierField).Some? {
      FieldWrittenIsWrite(d, e, UserIdentifierField, Carried(oldSpec, UserIdentifierField).value);
    }
  }

  /** A conditional field write keeps every list header followed by a value line. */
  lemma WriteIfCarriedKeepsHead(lines: seq<string>, oldSpec: Option<seq<string>>, h: string, field: string)
    requires IsName(h) && IsName(field) && HeadFollowedByValue(lines, field)
    ensures HeadFollowedByValue(WriteIfCarried(lines, oldSpec, h), field)
  {
    if Carried(oldSpec, h).Some? {
      WriteFieldKeepsHead(lines, h, Carried(oldSpec, h).value, field);
    }
  }

  /** A conditional field write keeps the first match and capture of every other field. */
  lemma WriteIfCarriedKeeps(lines: seq<string>, oldSpec: Option<seq<string>>, h: string, p: Pattern)
    requires IsName(h) && Independent(p) && p != FieldValue(h)
    ensures First(WriteIfCarried(lines, oldSpec, h), p) == First(lines, p)
    ensures Captures(p) ==> FirstCapture(WriteIfCarried(lines, oldSpec, h), p) == FirstCapture(lines, p)
  {
    if Carried(oldSpec, h).Some? {
      WriteFieldKeeps(lines, h, Carried(oldSpec, h).value, p);
    }
  }

  /** A conditional field write stores the carried value, or leaves the field as it was. */
  lemma WriteIfCarriedReadBack(lines: seq<string>, oldSpec: Option<seq<string>>, h: string)
    ensures Carried(oldSpec, h).Some? ==>
              FirstCapture(WriteIfCarried(lines, oldSpec, h), FieldValue(h)) ==
                IfPresent(lines, FieldValue(h), Carried(oldSpec, h).value)
    ensures Carried(oldSpec, h).None? ==>
              FirstCapture(WriteIfCarried(lines, oldSpec, h), FieldValue(h)) == FirstCapture(lines, FieldValue(h))
  {
    if Carried(oldSpec, h).Some? && First(lines, FieldValue(h)).Some? {
      ReadBackField(lines, h, Carried(oldSpec, h).value);
    }
  }

  /** A conditional field write leaves every other list's entries in place. */
  lemma WriteIfCarriedKeepsList(lines: seq<string>, oldSpec: Option<seq<string>>, h: string, field: string, entries: seq<string>)
    requires IsName(h) && IsName(field) && h != field
    requires AllValueLines(entries) && ListAt(lines, field, entries)
    ensures ListAt(WriteIfCarried(lines, oldSpec, h), field, entries)
  {
    if Carried(oldSpec, h).Some? {
      WriteFieldKeepsList(lines, h, Carried(oldSpec, h).value, field, entries);
    }
  }

  /** The users list has at least one entry, and every entry is a value line. */
  lemma UsersListShape(oldSpec: Option<seq<string>>, p4user: string)
    ensures |UsersList(oldSpec, p4user)| >= 1 && AllValueLines(UsersList(oldSpec, p4user))
  {
    FoundListShape(oldSpec, NonSsoUsersField);
    assert IsValueLine(ValueIndent + p4user) by {
      assert (ValueIndent + p4user)[..2] == ValueIndent;
    }
  }

  /** The scalar steps keep both list headers followed by an entry. */
  lemma AfterScalarsHeads(oldSpec: Option<seq<string>>, newSpec: seq<string>)
    requires HeadFollowedByValue(newSpec, NonSsoGroupsField) && HeadFollowedByValue(newSpec, NonSsoUsersField)
    ensures HeadFollowedByValue(AfterScalars(oldSpec, newSpec), NonSsoGroupsField)
    ensures HeadFollowedByValue(AfterScalars(oldSpec, newSpec), NonSsoUsersField)
  {
    var a := WriteField(newSpec, EnableLoggingField, Carried(oldSpec, EnableLoggingField).GetOr(DefaultEnableLogging));
    WriteFieldKeepsHead(newSpec, EnableLoggingField, Carried(oldSpec, EnableLoggingField).GetOr(DefaultEnableLogging), NonSsoGroupsField);
    WriteFieldKeepsHead(newSpec, EnableLoggingField, Carried(oldSpec, EnableLoggingField).GetOr(DefaultEnableLogging), NonSsoUsersField);
    WriteIfCarriedKeepsHead(a, oldSpec, NameIdentifierField, NonSsoGroupsField);
    WriteIfCarriedKeepsHead(a, oldSpec, NameIdentifierField, NonSsoUsersField);
  }

  /** The scalar steps keep the first match and capture of every pattern but their own two fields. */
  lemma AfterScalarsKeeps(oldSpec: Option<seq<string>>, newSpec: seq<string>, p: Pattern)
    requires Independent(p) && p != FieldValue(EnableLoggingField) && p != FieldValue(NameIdentifierField)
    ensures First(AfterScalars(oldSpec, newSpec), p) == First(newSpec, p)
    ensures Captures(p) ==> FirstCapture(AfterScalars(oldSpec, newSpec), p) == FirstCapture(newSpec, p)
  {
    var logging := Carried(oldSpec, EnableLoggingField).GetOr(DefaultEnableLogging);
    WriteFieldKeeps(newSpec, EnableLoggingField, logging, p);
    WriteIfCarriedKeeps(WriteField(newSpec, EnableLoggingField, logging), oldSpec, NameIdentifierField, p);
  }

  /** The scalar steps store enable-logging and name-identifier. */
  lemma AfterScalarsReadBack(oldSpec: Option<seq<string>>, newSpec: seq<string>)
    ensures FirstCapture(AfterScalars(oldSpec, newSpec), FieldValue(EnableLoggingField)) ==
              IfPresent(newSpec, FieldValue(EnableLoggingField), Carried(oldSpec, EnableLoggingField).GetOr(DefaultEnableLogging))
    ensures Carried(oldSpec, NameIdentifierField).Some? ==>
              FirstCapture(AfterScalars(oldSpec, newSpec), FieldValue(NameIdentifierField)) ==
                IfPresent(newSpec, FieldValue(NameIdentifierField), Carried(oldSpec, NameIdentifierField).value)
    ensures Carried(oldSpec, NameIdentifierField).None? ==>
              FirstCapture(AfterScalars(oldSpec, newSpec), FieldValue(NameIdentifierField)) ==
                FirstCapture(newSpec, FieldValue(NameIdentifierField))
  {
    var logging := Carried(oldSpec, EnableLoggingField).GetOr(DefaultEnableLogging);
    var a := WriteField(newSpec, EnableLoggingField, logging);
    if First(newSpec, FieldValue(EnableLoggingField)).Some? {
      ReadBackField(newSpec, EnableLoggingField, logging);
    }
    WriteIfCarriedKeeps(a, oldSpec, NameIdentifierField, FieldValue(EnableLoggingField));
    WriteFieldKeeps(newSpec, EnableLoggingField, logging, FieldValue(NameIdentifierField));
    WriteIfCarriedReadBack(a, oldSpec, NameIdentifierField);
  }

  /** The list steps keep whether every scalar field is present, and what it captures. */
  lemma AfterListsKeeps(oldSpec: Option<seq<string>>, b: seq<string>, p4user: string, p: Pattern)
    requires HeadFollowedByValue(b, NonSsoGroupsField) && HeadFollowedByValue(b, NonSsoUsersField)
    requires Independent(p) && Captures(p) && p != FieldValue(NonSsoGroupsField) && p != FieldValue(NonSsoUsersField)
    ensures First(AfterLists(oldSpec, b, p4user), p).Some? <==> First(b, p).Some?
    ensures FirstCapture(AfterLists(oldSpec, b, p4user), p) == FirstCapture(b, p)
  {
    GroupsWriteKeeps(oldSpec, b, p);
    var c := WriteGroupsIfFound(b, oldSpec);
    var users := UsersList(oldSpec, p4user);
    UsersListShape(oldSpec, p4user);
    WriteListKeeps(c, NonSsoUsersField, users, p);
  }

  /** Writing a found groups list keeps the users header followed by a value and every other captured field. */
  lemma GroupsWriteKeeps(oldSpec: Option<seq<string>>, b: seq<string>, p: Pattern)
    requires HeadFollowedByValue(b, NonSsoGroupsField) && HeadFollowedByValue(b, NonSsoUsersField)
    requires Independent(p) && Captures(p) && p != FieldValue(NonSsoGroupsField)
    ensures HeadFollowedByValue(WriteGroupsIfFound(b, oldSpec), NonSsoUsersField)
    ensures First(WriteGroupsIfFound(b, oldSpec), p).Some? <==> First(b, p).Some?
    ensures FirstCapture(WriteGroupsIfFound(b, oldSpec), p) == FirstCapture(b, p)
  {
    FoundListShape(oldSpec, NonSsoGroupsField);
    if FoundList(oldSpec, NonSsoGroupsField).Some? {
      var groups := FoundList(oldSpec, NonSsoGroupsField).value;
      WriteListKeeps(b, NonSsoGroupsField, groups, p);
      WriteListKeepsHead(b, NonSsoGroupsField, groups, NonSsoUsersField);
    }
  }

  /** The list steps put the users list right after the first non-sso-users header. */
  lemma AfterListsUsers(oldSpec: Option<seq<string>>, b: seq<string>, p4user: string)
    requires HeadFollowedByValue(b, NonSsoGroupsField) && HeadFollowedByValue(b, NonSsoUsersField)
    requires First(b, ListHead(NonSsoUsersField)).Some?
    ensures ListAt(AfterLists(oldSpec, b, p4user), NonSsoUsersField, UsersList(oldSpec, p4user))
  {
    GroupsWriteKeepsUsersHead(oldSpec, b);
    var users := UsersList(oldSpec, p4user);
    UsersListShape(oldSpec, p4user);
    ReadBackList(WriteGroupsIfFound(b, oldSpec), NonSsoUsersField, users);
  }

  /** Writing a found groups list keeps a non-sso-users header present. */
  lemma GroupsWriteKeepsUsersHead(oldSpec: Option<seq<string>>, b: seq<string>)
    requires HeadFollowedByValue(b, NonSsoGroupsField)
    requires First(b, ListHead(NonSsoUsersField)).Some?
    ensures First(WriteGroupsIfFound(b, oldSpec), ListHead(NonSsoUsersField)).Some?
  {
    FoundListShape(oldSpec, NonSsoGroupsField);
    if FoundList(oldSpec, NonSsoGroupsField).Some? {
      WriteListKeeps(b, NonSsoGroupsField, FoundList(oldSpec, NonSsoGroupsField).value, ListHead(NonSsoUsersField));
    }
  }

  /** The list steps put a found groups list right after the first non-sso-groups header, and keep it there. */
  lemma AfterListsGroups(oldSpec: Option<seq<string>>, b: seq<string>, p4user: string)
    requires HeadFollowedByValue(b, NonSsoGroupsField) && HeadFollowedByValue(b, NonSsoUsersField)
    requires FoundList(oldSpec, NonSsoGroupsField).Some? && First(b, ListHead(NonSsoGroupsField)).Some?
    ensures ListAt(AfterLists(oldSpec, b, p4user), NonSsoGroupsField, FoundList(oldSpec, NonSsoGroupsField).value)
  {
    var groups := FoundList(oldSpec, NonSsoGroupsField).value;
    var c := WriteList(b, NonSsoGroupsField, groups);
    FoundListShape(oldSpec, NonSsoGroupsField);
    UsersListShape(oldSpec, p4user);
    ReadBackList(b, NonSsoGroupsField, groups);
    WriteListKeepsHead(b, NonSsoGroupsField, groups, NonSsoUsersField);
    WriteListKeepsList(c, NonSsoUsersField, UsersList(oldSpec, p4user), NonSsoGroupsField, groups);
  }

  /**
   * After the instance pipeline, enable-logging, name-identifier and
   * user-identifier read back as the merged values wherever the new spec has
   * them. It needs the new spec's two list headers, where present, to be
   * followed by an entry, as a generated spec's are.
   */
  lemma InstanceConfigReadBack(oldSpec: Option<seq<string>>, newSpec: seq<string>, env: Env)
    requires SetInstanceConfig(oldSpec, newSpec, env).Ok?
    requires HeadFollowedByValue(newSpec, NonSsoGroupsField) && HeadFollowedByValue(newSpec, NonSsoUsersField)
    ensures var r := SetInstanceConfig(oldSpec, newSpec, env).value;
            && FirstCapture(r, FieldValue(EnableLoggingField)) ==
                 IfPresent(newSpec, FieldValue(EnableLoggingField), Carried(oldSpec, EnableLoggingField).GetOr(DefaultEnableLogging))
            && (Carried(oldSpec, NameIdentifierField).Some? ==>
                  FirstCapture(r, FieldValue(NameIdentifierField)) ==
                    IfPresent(newSpec, FieldValue(NameIdentifierField), Carried(oldSpec, NameIdentifierField).value))
            && (Carried(oldSpec, NameIdentifierField).None? ==>
                  FirstCapture(r, FieldValue(NameIdentifierField)) == FirstCapture(newSpec, FieldValue(NameIdentifierField)))
            && (Carried(oldSpec, UserIdentifierField).Some? ==>
                  FirstCapture(r, FieldValue(UserIdentifierField)) ==
                    IfPresent(newSpec, FieldValue(UserIdentifierField), Carried(oldSpec, UserIdentifierField).value))
            && (Carried(oldSpec, UserIdentifierField).None? ==>
                  FirstCapture(r, FieldValue(UserIdentifierField)) == FirstCapture(newSpec, FieldValue(UserIdentifierField)))
  {
    InstanceConfigSteps(oldSpec, newSpec, env);
    var b := AfterScalars(oldSpec, newSpec);
    var d := AfterLists(oldSpec, b, env.p4user);
    var uip := FieldValue(UserIdentifierField);
    AfterScalarsHeads(oldSpec, newSpec);
    AfterScalarsReadBack(oldSpec, newSpec);
    AfterScalarsKeeps(oldSpec, newSpec, uip);
    AfterListsKeeps(oldSpec, b, env.p4user, FieldValue(EnableLoggingField));
    AfterListsKeeps(oldSpec, b, env.p4user, FieldValue(NameIdentifierField));
    AfterListsKeeps(oldSpec, b, env.p4user, uip);
    WriteIfCarriedKeeps(d, oldSpec, UserIdentifierField, FieldValue(EnableLoggingField));
    WriteIfCarriedKeeps(d, oldSpec, UserIdentifierField, FieldValue(NameIdentifierField));
    WriteIfCarriedReadBack(d, oldSpec, UserIdentifierField);
  }

  /**
   * After the instance pipeline, the first non-sso-users header is followed
   * by the old list (else the installing user), and the first non-sso-groups
   * header by the old list when one was found.
   */
  lemma InstanceConfigLists(oldSpec: Option<seq<string>>, newSpec: seq<string>, env: Env)
    requires SetInstanceConfig(oldSpec, newSpec, env).Ok?
    requires HeadFollowedByValue(newSpec, NonSsoGroupsField) && HeadFollowedByValue(newSpec, NonSsoUsersField)
    ensures var r := SetInstanceConfig(oldSpec, newSpec, env).value;
            First(newSpec, ListHead(NonSsoUsersField)).Some? ==> ListAt(r, NonSsoUsersField, UsersList(oldSpec, env.p4user))
    ensures var r := SetInstanceConfig(oldSpec, newSpec, env).value;
            FoundList(oldSpec, NonSsoGroupsField).Some? && First(newSpec, ListHead(NonSsoGroupsField)).Some? ==>
              ListAt(r, NonSsoGroupsField, FoundList(oldSpec, NonSsoGroupsField).value)
  {
    InstanceConfigSteps(oldSpec, newSpec, env);
    var b := AfterScalars(oldSpec, newSpec);
    var d := AfterLists(oldSpec, b, env.p4user);
    AfterScalarsHeads(oldSpec, newSpec);
    AfterScalarsKeeps(oldSpec, newSpec, ListHead(NonSsoGroupsField));
    AfterScalarsKeeps(oldSpec, newSpec, ListHead(NonSsoUsersField));
    FoundListShape(oldSpec, NonSsoGroupsField);
    UsersListShape(oldSpec, env.p4user);
    if First(newSpec, ListHead(NonSsoUsersField)).Some? {
      AfterListsUsers(oldSpec, b, env.p4user);
      WriteIfCarriedKeepsList(d, oldSpec, UserIdentifierField, NonSsoUsersField, UsersList(oldSpec, env.p4user));
    }
    if FoundList(oldSpec, NonSsoGroupsField).Some? && First(newSpec, ListHead(NonSsoGroupsField)).Some? {
      var groups := FoundList(oldSpec, NonSsoGroupsField).value;
      AfterListsGroups(oldSpec, b, env.p4user);
      WriteIfCarriedKeepsList(d, oldSpec, UserIdentifierField, NonSsoGroupsField, groups);
    }
  }

  /** The instance pipeline leaves every field it does not own reading as it did. */
  lemma InstanceConfigKeepsFields(oldSpec: Option<seq<string>>, newSpec: seq<string>, env: Env, field: string)
    requires SetInstanceConfig(oldSpec, newSpec, env).Ok?
    requires HeadFollowedByValue(newSpec, NonSsoGroupsField) && HeadFollowedByValue(newSpec, NonSsoUsersField)
    requires IsName(field)
    requires field !in {EnableLoggingField, NameIdentifierField, UserIdentifierField, NonSsoGroupsField, NonSsoUsersField}
    ensures FirstCapture(SetInstanceConfig(oldSpec, newSpec, env).value, FieldValue(field)) ==
              FirstCapture(newSpec, FieldValue(field))
  {
    InstanceConfigSteps(oldSpec, newSpec, env);
    var b := AfterScalars(oldSpec, newSpec);
    var p := FieldValue(field);
    AfterScalarsHeads(oldSpec, newSpec);
    AfterScalarsKeeps(oldSpec, newSpec, p);
    AfterListsKeeps(oldSpec, b, env.p4user, p);
    WriteIfCarriedKeeps(AfterLists(oldSpec, b, env.p4user), oldSpec, UserIdentifierField, p);
  }

  // ---------------------------------------------------------------------------
  // extractList as text

  /** What extractList returns for a spec text: the extracted lines joined by line feeds. */
  function ExtractListText(spec: string, field: string): Option<string>
  {
    match ExtractList(Split(spec), field)
    case None => None
    case Some(entries) => Some(Join(entries))
  }

  /**
   * `if (found)` on the joined text agrees with FoundList: a list is found
   * exactly when the old spec is there and extractList returns a non-empty
   * string, and that string splits back into the found entries, so inserting
   * it after the header inserts exactly those lines.
   */
  lemma {:induction false} FoundListIsTruthyText(text: Option<string>, field: string)
    ensures var oldSpec := OldSpecLines(text);
            FoundList(oldSpec, field).Some? <==> Truthy(text) && Truthy(ExtractListText(text.value, field))
    ensures var oldSpec := OldSpecLines(text);
            FoundList(oldSpec, field).Some? ==>
              && Join(FoundList(oldSpec, field).value) == ExtractListText(text.value, field).value
              && Split(ExtractListText(text.value, field).value) == FoundList(oldSpec, field).value
  {
    var oldSpec := OldSpecLines(text);
    if Truthy(text) {
      var lines := Split(text.value);
      ExtractListRun(lines, field);
      match ExtractList(lines, field)
      case None =>
      case Some(entries) =>
        JoinEmptyIffNoLines(entries, ValueIndent);
        if entries != [] {
          var start := FindIndex(lines, ExactLine(Header(field)));
          var remainder := lines[start + 1..];
          forall k | 0 <= k < |entries|
            ensures IsLine(entries[k])
          {
            assert entries[k] == remainder[k] == lines[start + 1 + k];
          }
          SplitJoin(entries);
        }
    }
  }

  // ---------------------------------------------------------------------------
  // extractList on small specs

  /** A header on the very first line is not found: index 0 is falsy, so nothing is extracted. */
  lemma ExtractListHeaderOnFirstLine(lines: seq<string>, field: string)
    requires |lines| > 0 && lines[0] == Header(field)
    ensures ExtractList(lines, field) == None
  {
    FirstIs(lines, ExactLine(Header(field)), 0);
    ExtractListRun(lines, field);
  }

  /**
   * After a header past the first line, a run of value lines ended by another
   * line is returned verbatim: no entry is filtered or rewritten.
   */
  lemma ExtractListVerbatim(lines: seq<string>, field: string, i: nat, n: nat)
    requires First(lines, ExactLine(Header(field))) == Some(i) && i > 0
    requires n > 0 && RunEndsAt(lines[i + 1..], n)
    ensures ExtractList(lines, field) == Some(lines[i + 1..i + 1 + n])
  {
    ExtractListRun(lines, field);
    assert ListRemainder(lines, field) == lines[i + 1..];
    assert lines[i + 1..][..n] == lines[i + 1..i + 1 + n];
  }

  /** A list that runs to the end of the text loses its last entry: `slice(0, -1)`. */
  lemma ExtractListDropsLastAtEnd(lines: seq<string>, field: string, i: nat)
    requires First(lines, ExactLine(Header(field))) == Some(i) && i > 0
    requires AllValueLines(lines[i + 1..])
    ensures ExtractList(lines, field) == Some(if i + 1 == |lines| then [] else lines[i + 1..|lines| - 1])
  {
    ExtractListRun(lines, field);
    assert ListRemainder(lines, field) == lines[i + 1..];
    if i + 1 < |lines| {
      assert lines[i + 1..][..|lines| - i - 2] == lines[i + 1..|lines| - 1];
    }
  }

  /** A missing header counts as found (index -1 is truthy), so the scan starts at the first line. */
  lemma ExtractListMissingHeader(lines: seq<string>, field: string, n: nat)
    requires First(lines, ExactLine(Header(field))).None?
    requires n > 0 && RunEndsAt(lines, n)
    ensures ExtractList(lines, field) == Some(lines[..n])
  {
    ExtractListRun(lines, field);
  }

  /** Example: entries starting with `...` are kept like any other. */
  lemma ExtractListKeepsPlaceholders(lines: seq<string>)
    requires lines == ["ExtName:\tloginhook", "\tnon-sso-users:", "\t\tbruno", "\t\t... list", ""]
    ensures ExtractList(lines, NonSsoUsersField) == Some(["\t\tbruno", "\t\t... list"])
  {
    var header := Header(NonSsoUsersField);
    assert lines[0] != header by {
      assert lines[0][0] == 'E' && header[0] == '\t';
    }
    FirstIs(lines, ExactLine(header), 1);
    var rem := lines[2..];
    assert IsValueLine(rem[0]) by {
      assert rem[0][..2] == ValueIndent;
    }
    assert IsValueLine(rem[1]) by {
      assert rem[1][..2] == ValueIndent;
    }
    assert RunEndsAt(rem, 2);
    ExtractListVerbatim(lines, NonSsoUsersField, 1, 2);
    assert lines[2..4] == ["\t\tbruno", "\t\t... list"];
  }
}

=== FILE: list_frames.dfy ===
/**
 * List fields across rewrites: a list written under its header stays there,
 * in order, while other fields and other lists are rewritten.
 */
module ListFrames {
  import opened Results
  import opened Text
  import opened SpecLines
  import opened SpecFrames

  /** The first `field` header, if any, is followed by a value line (a list with an entry). */
  predicate HeadFollowedByValue(lines: seq<string>, field: string)
  {
    First(lines, ListHead(field)).Some? ==> IsValueLine(lines[First(lines, ListHead(field)).value + 1])
  }

  /** The lines from `start` on begin with `entries`. */
  predicate RunAt(lines: seq<string>, start: nat, entries: seq<string>)
  {
    start + |entries| <= |lines| && forall k :: 0 <= k < |entries| ==> lines[start + k] == entries[k]
  }

  /** The first `field` header is directly followed by the lines `entries`. */
  predicate ListAt(lines: seq<string>, field: string, entries: seq<string>)
  {
    First(lines, ListHead(field)).Some? && RunAt(lines, First(lines, ListHead(field)).value + 1, entries)
  }

  /** A header is never a value line. */
  lemma HeaderNotValueLine(field: string)
    requires IsName(field)
    ensures !IsValueLine(Header(field))
  {
    assert Header(field)[1] == field[0];
  }

  /** Writing a list under a present header puts the entries right after it. */
  lemma ReadBackList(lines: seq<string>, field: string, entries: seq<string>)
    requires |entries| >= 1
    requires First(lines, ListHead(field)).Some?
    ensures ListAt(WriteList(lines, field, entries), field, entries)
  {
    var r := WriteList(lines, field, entries);
    var i := First(lines, ListHead(field)).value;
    ListWrittenSpliced(lines, r, field, entries);
    forall j: nat | j < i
      ensures !MatchesAt(r, j, ListHead(field))
    {
      assert r[j] == lines[j];
      assert !MatchesAt(lines, j, ListHead(field));
    }
    FirstIs(r, ListHead(field), i);
  }

  /** Writing a field keeps the first header of every list followed by a value line. */
  lemma WriteFieldKeepsHead(lines: seq<string>, h: string, v: string, field: string)
    requires IsName(h) && IsName(field)
    requires HeadFollowedByValue(lines, field)
    ensures HeadFollowedByValue(WriteField(lines, h, v), field)
  {
    var r := WriteField(lines, h, v);
    WriteFieldKeeps(lines, h, v, ListHead(field));
    if First(r, ListHead(field)).Some? {
      var i := First(r, ListHead(field)).value;
      match First(lines, FieldValue(h))
      case None =>
      case Some(j) =>
        if i + 1 == j + 1 {
          assert r[i + 1][..2] == ValueIndent;
        } else {
          assert r[i + 1] == lines[i + 1];
        }
    }
  }

  /** Writing a field other than the list leaves the list's entries in place. */
  lemma WriteFieldKeepsList(lines: seq<string>, h: string, v: string, field: string, entries: seq<string>)
    requires IsName(h) && IsName(field) && h != field
    requires AllValueLines(entries)
    requires ListAt(lines, field, entries)
    ensures ListAt(WriteField(lines, h, v), field, entries)
  {
    var r := WriteField(lines, h, v);
    WriteFieldKeeps(lines, h, v, ListHead(field));
    var i := First(lines, ListHead(field)).value;
    match First(lines, FieldValue(h))
    case None =>
    case Some(j) =>
      // The rewritten line follows a header of `h`: not the list's header, not one of its entries.
      assert j != i by {
        HeaderInjective(field, h);
      }
      forall k | 0 <= k < |entries|
        ensures r[i + 1 + k] == entries[k]
      {
        if i + 1 + k == j + 1 {
          assert lines[j] == entries[k - 1];
          HeaderNotValueLine(h);
        }
      }
  }

  /** Where the first header of `field` lies relative to a list written for `g`. */
  lemma SpliceOutsideHead(before: seq<string>, after: seq<string>, gi: nat, more: seq<string>, field: string)
    requires Spliced(before, after, gi, more) && AllValueLines(more)
    requires IsValueLine(before[gi + 1]) && IsName(field) && before[gi] != Header(field)
    requires First(before, ListHead(field)).Some?
    ensures var i := First(before, ListHead(field)).value;
            (i < gi || i >= gi + 2) && i != gi + 1
  {
    var i := First(before, ListHead(field)).value;
    HeaderNotValueLine(field);
    assert i != gi + 1;
  }

  /** Writing another list keeps the first header of every list followed by a value line. */
  lemma WriteListKeepsHead(lines: seq<string>, g: string, more: seq<string>, field: string)
    requires IsName(g) && IsName(field) && g != field
    requires |more| >= 1 && AllValueLines(more)
    requires HeadFollowedByValue(lines, g) && HeadFollowedByValue(lines, field)
    ensures HeadFollowedByValue(WriteList(lines, g, more), field)
  {
    var r := WriteList(lines, g, more);
    WriteListKeeps(lines, g, more, ListHead(field));
    match First(lines, ListHead(g))
    case None =>
    case Some(gi) =>
      if First(lines, ListHead(field)).Some? {
        var i := First(lines, ListHead(field)).value;
        ListWrittenSpliced(lines, r, g, more);
        HeaderInjective(field, g);
        SpliceOutsideHead(lines, r, gi, more, field);
        if i < gi {
          assert r[i + 1] == lines[i + 1];
        } else {
          assert r[i + 1 + |more| - 1] == lines[i + 1];
        }
      }
  }

  /** A run that ends before the spliced line stays where it was. */
  lemma SplicedKeepsEarlierRun(before: seq<string>, after: seq<string>, gi: nat, more: seq<string>, start: nat, entries: seq<string>)
    requires Spliced(before, after, gi, more)
    requires start + |entries| <= gi + 1 && RunAt(before, start, entries)
    ensures RunAt(after, start, entries)
  {
    forall k | 0 <= k < |entries|
      ensures after[start + k] == entries[k]
    {
      assert after[start + k] == before[start + k];
    }
  }

  /** A run that starts after the spliced line moves down by the lines added. */
  lemma SplicedMovesLaterRun(before: seq<string>, after: seq<string>, gi: nat, more: seq<string>, start: nat, entries: seq<string>)
    requires Spliced(before, after, gi, more)
    requires gi + 2 <= start && RunAt(before, start, entries)
    ensures RunAt(after, start + |more| - 1, entries)
  {
    forall k | 0 <= k < |entries|
      ensures after[start + |more| - 1 + k] == entries[k]
    {
      assert after[(start + k) + |more| - 1] == before[start + k];
    }
  }

  /** A header after the start of a run of value lines lies past its end. */
  lemma HeaderAfterRun(lines: seq<string>, gi: nat, g: string, start: nat, entries: seq<string>)
    requires RunAt(lines, start, entries) && AllValueLines(entries)
    requires IsName(g) && gi < |lines| && lines[gi] == Header(g) && start <= gi
    ensures gi >= start + |entries|
  {
    if gi < start + |entries| {
      assert lines[gi] == entries[gi - start];
      HeaderNotValueLine(g);
    }
  }

  /** Writing another list leaves this list's entries in place, moved down if they follow it. */
  lemma WriteListKeepsList(lines: seq<string>, g: string, more: seq<string>, field: string, entries: seq<string>)
    requires IsName(g) && IsName(field) && g != field
    requires |more| >= 1 && AllValueLines(more) && AllValueLines(entries)
    requires HeadFollowedByValue(lines, g)
    requires ListAt(lines, field, entries)
    ensures ListAt(WriteList(lines, g, more), field, entries)
  {
    var r := WriteList(lines, g, more);
    var i := First(lines, ListHead(field)).value;
    WriteListKeeps(lines, g, more, ListHead(field));
    if First(lines, ListHead(g)).Some? {
      var gi := First(lines, ListHead(g)).value;
      ListWrittenSpliced(lines, r, g, more);
      HeaderInjective(field, g);
      if i < gi {
        // The other header is not among this list's entries, so they all lie before it.
        HeaderAfterRun(lines, gi, g, i + 1, entries);
        SplicedKeepsEarlierRun(lines, r, gi, more, i + 1, entries);
      } else {
        SpliceOutsideHead(lines, r, gi, more, field);
        SplicedMovesLaterRun(lines, r, gi, more, i + 1, entries);
      }
    }
  }
}

=== FILE: results.dfy ===
/** Optional values and results with an error, usable with `:-`. */
module Results {

  /** A value that may be absent: JavaScript's `undefined` versus a value. */
  datatype Option<+T> = None | Some(value: T) {

    /** Returns the value in Some, or `default` when None. */
    function GetOr(default: T): T
    {
      match this
      case Some(v) => v
      case None => default
    }
  }

  /** Either a value or the error that aborted the computation. */
  datatype Result<+T, +E> = Ok(value: T) | Err(error: E) {

    predicate IsFailure()
    {
      Err?
    }

    function PropagateFailure<U>(): Result<U, E>
      requires Err?
    {
      Err(error)
    }

    function Extract(): T
      requires Ok?
    {
      value
    }
  }

  /** JavaScript truthiness of a possibly undefined string: neither undefined nor empty. */
  predicate Truthy(s: Option<string>)
  {
    s.Some? && s.value != ""
  }

  /** The JavaScript expression `s || fallback` for a possibly undefined string. */
  function OrElse(s: Option<string>, fallback: string): (r: string)
    ensures Truthy(s) ==> r == s.value
    ensures !Truthy(s) ==> r == fallback
    ensures fallback != "" ==> r != ""
  {
    if Truthy(s) then s.value else fallback
  }
}

=== FILE: spec_frames.dfy ===
/**
 * What a rewrite of one field leaves alone: the leftmost matches (and their
 * captures) of the patterns that look for other fields.
 */
module SpecFrames {
  import opened Results
  import opened Text
  import opened SpecLines

  /**
   * Patterns that look for names spelled as the extension spells them, so
   * that a value line (two leading tabs) or a key line (no leading tab) can
   * only satisfy their single-line tests as predicted.
   */
  predicate Independent(p: Pattern)
  {
    match p
    case KeyLine(k) => IsName(k)
    case FieldValue(g) => IsName(g)
    case ListHead(g) => IsName(g)
    case ExactLine(t) => |t| >= 2 && t[0] == '\t' && t[1] != '\t'
    case NotValueLine => true
  }

  /** Lines `x` and `y` look the same to every test the pattern makes on a single line. */
  predicate LineAgrees(x: string, y: string, p: Pattern)
  {
    && IsValueLine(x) == IsValueLine(y)
    && match p
       case KeyLine(k) => HasPrefix(x, KeyPrefix(k)) == HasPrefix(y, KeyPrefix(k))
       case FieldValue(g) => (x == Header(g)) == (y == Header(g))
       case ListHead(g) => (x == Header(g)) == (y == Header(g))
       case ExactLine(t) => (x == t) == (y == t)
       case NotValueLine => true
  }

  /** A value line is never a header, a key line or a header-like line. */
  lemma ValueLineMatchesNothing(x: string, p: Pattern)
    requires IsValueLine(x) && Independent(p)
    ensures p.KeyLine? ==> !HasPrefix(x, KeyPrefix(p.key))
    ensures p.FieldValue? ==> x != Header(p.field)
    ensures p.ListHead? ==> x != Header(p.field)
    ensures p.ExactLine? ==> x != p.text
  {
    assert x[0] == '\t' && x[1] == '\t';
    match p
    case KeyLine(k) =>
      assert KeyPrefix(k)[0] == k[0];
    case FieldValue(g) =>
      assert Header(g)[1] == g[0];
    case ListHead(g) =>
      assert Header(g)[1] == g[0];
    case ExactLine(t) =>
    case NotValueLine =>
  }

  /** Two value lines agree for every independent pattern. */
  lemma ValueLinesAgree(x: string, y: string, p: Pattern)
    requires IsValueLine(x) && IsValueLine(y) && Independent(p)
    ensures LineAgrees(x, y, p)
  {
    ValueLineMatchesNothing(x, p);
    ValueLineMatchesNothing(y, p);
  }

  /** Two lines of the same key agree for every independent pattern that is not another key's. */
  lemma KeyLinesAgree(key: string, x: string, y: string, p: Pattern)
    requires IsName(key) && Independent(p)
    requires HasPrefix(x, KeyPrefix(key)) && HasPrefix(y, KeyPrefix(key))
    requires p.KeyLine? ==> p.key == key
    ensures LineAgrees(x, y, p)
  {
    assert x[0] == KeyPrefix(key)[0] == key[0] && y[0] == key[0];
    assert !IsValueLine(x) && !IsValueLine(y);
    match p
    case KeyLine(k) =>
    case FieldValue(g) =>
      assert Header(g)[0] == '\t';
    case ListHead(g) =>
      assert Header(g)[0] == '\t';
    case ExactLine(t) =>
    case NotValueLine =>
  }

  /** Different names have different header lines. */
  lemma HeaderInjective(f: string, g: string)
    ensures Header(f) == Header(g) ==> f == g
  {
    if Header(f) == Header(g) {
      assert Header(f)[1..|Header(f)| - 1] == f;
      assert Header(g)[1..|Header(g)| - 1] == g;
    }
  }

  /** FieldWritten pins the rewritten spec down: it is the one WriteField computes. */
  lemma FieldWrittenIsWrite(before: seq<string>, after: seq<string>, field: string, v: string)
    requires FieldWritten(before, after, field, v)
    ensures after == WriteField(before, field, v)
  {
    var w := WriteField(before, field, v);
    if First(before, FieldValue(field)).Some? {
      assert forall k :: 0 <= k < |after| ==> after[k] == w[k];
    }
  }

  /** KeyWritten pins the rewritten spec down: it is the one WriteKey computes. */
  lemma KeyWrittenIsWrite(before: seq<string>, after: seq<string>, key: string, v: string)
    requires KeyWritten(before, after, key, v)
    ensures after == WriteKey(before, key, v)
  {
    var w := WriteKey(before, key, v);
    if First(before, KeyLine(key)).Some? {
      assert forall k :: 0 <= k < |after| ==> after[k] == w[k];
    }
  }

  /** ListWritten pins the rewritten spec down: it is the one WriteList computes. */
  lemma ListWrittenIsWrite(before: seq<string>, after: seq<string>, field: string, entries: seq<string>)
    requires ListWritten(before, after, field, entries)
    ensures after == WriteList(before, field, entries)
  {
    var w := WriteList(before, field, entries);
    if First(before, ListHead(field)).Some? {
      var i := First(before, ListHead(field)).value;
      assert after == after[..i + 1] + after[i + 1..i + 1 + |entries|] + after[i + 1 + |entries|..];
      assert w == w[..i + 1] + w[i + 1..i + 1 + |entries|] + w[i + 1 + |entries|..];
    }
  }

  /** Writing the value a field already holds changes nothing. */
  lemma WriteFieldNoop(lines: seq<string>, field: string, v: string)
    requires FirstCapture(lines, FieldValue(field)) in {None, Some(v)}
    ensures WriteField(lines, field, v) == lines
  {
    var w := WriteField(lines, field, v);
    if First(lines, FieldValue(field)).Some? {
      var i := First(lines, FieldValue(field)).value;
      assert lines[i + 1] == lines[i + 1][..2] + lines[i + 1][2..];
      assert forall k :: 0 <= k < |w| ==> w[k] == lines[k];
    }
  }

  /** Writing the value a key already holds changes nothing. */
  lemma WriteKeyNoop(lines: seq<string>, key: string, v: string)
    requires FirstCapture(lines, KeyLine(key)) in {None, Some(v)}
    ensures WriteKey(lines, key, v) == lines
  {
    var w := WriteKey(lines, key, v);
    if First(lines, KeyLine(key)).Some? {
      var i := First(lines, KeyLine(key)).value;
      var n := |KeyPrefix(key)|;
      assert lines[i] == lines[i][..n] + lines[i][n..];
      assert forall k :: 0 <= k < |w| ==> w[k] == lines[k];
    }
  }

  /** The line whose text a capture reads, for a match at line `i`. */
  function CaptureLine(i: nat, p: Pattern): nat
  {
    if p.FieldValue? then i + 1 else i
  }

  /**
   * Replacing line `k` by a line that agrees with it for `p` keeps the
   * leftmost match of `p`, and its capture unless the capture reads line `k`.
   */
  lemma SwapKeepsFirst(a: seq<string>, b: seq<string>, k: nat, p: Pattern)
    requires |a| == |b| && k < |a|
    requires forall j :: 0 <= j < |a| && j != k ==> a[j] == b[j]
    requires LineAgrees(a[k], b[k], p)
    ensures First(a, p) == First(b, p)
    ensures Captures(p) && First(a, p).Some? && CaptureLine(First(a, p).value, p) != k ==>
              FirstCapture(a, p) == FirstCapture(b, p)
  {
    forall j: nat
      ensures MatchesAt(a, j, p) == MatchesAt(b, j, p)
    {
      if j + Width(p) <= |a| {
        assert j + 1 < |a| ==> a[j + 1] == b[j + 1] || j + 1 == k;
      }
    }
    SameMatchesSameFirst(a, b, p);
  }

  /** Writing one field's value keeps the leftmost match of every other independent pattern. */
  lemma WriteFieldKeeps(lines: seq<string>, field: string, v: string, p: Pattern)
    requires IsName(field) && Independent(p) && p != FieldValue(field)
    ensures First(WriteField(lines, field, v), p) == First(lines, p)
    ensures Captures(p) ==> FirstCapture(WriteField(lines, field, v), p) == FirstCapture(lines, p)
  {
    var r := WriteField(lines, field, v);
    match First(lines, FieldValue(field))
    case None =>
    case Some(i) =>
      assert IsValueLine(lines[i + 1]);
      assert IsValueLine(r[i + 1]) by {
        assert r[i + 1][..2] == ValueIndent;
      }
      ValueLinesAgree(lines[i + 1], r[i + 1], p);
      SwapKeepsFirst(lines, r, i + 1, p);
      if Captures(p) && First(lines, p).Some? {
        ValueLineMatchesNothing(lines[i + 1], p);
        if p.FieldValue? {
          HeaderInjective(field, p.field);
        }
        assert CaptureLine(First(lines, p).value, p) != i + 1;
      }
  }

  /** Writing a key line keeps the leftmost match of every independent pattern of another kind. */
  lemma WriteKeyKeeps(lines: seq<string>, key: string, v: string, p: Pattern)
    requires IsName(key) && Independent(p) && !p.KeyLine?
    ensures First(WriteKey(lines, key, v), p) == First(lines, p)
    ensures Captures(p) ==> FirstCapture(WriteKey(lines, key, v), p) == FirstCapture(lines, p)
  {
    var r := WriteKey(lines, key, v);
    match First(lines, KeyLine(key))
    case None =>
    case Some(i) =>
      assert HasPrefix(r[i], KeyPrefix(key)) by {
        assert r[i][..|KeyPrefix(key)|] == KeyPrefix(key);
      }
      KeyLinesAgree(key, lines[i], r[i], p);
      SwapKeepsFirst(lines, r, i, p);
      if Captures(p) && First(lines, p).Some? {
        assert !IsValueLine(lines[i]) by {
          assert lines[i][0] == KeyPrefix(key)[0] == key[0];
        }
        assert CaptureLine(First(lines, p).value, p) != i;
      }
  }

  /** Reading a field back after writing it gives the value written. */
  lemma ReadBackField(lines: seq<string>, field: string, v: string)
    requires First(lines, FieldValue(field)).Some?
    ensures FirstCapture(WriteField(lines, field, v), FieldValue(field)) == Some(v)
  {
    var r := WriteField(lines, field, v);
    var i := First(lines, FieldValue(field)).value;
    assert IsValueLine(r[i + 1]) by {
      assert r[i + 1][..2] == ValueIndent;
    }
    forall j: nat | j < i
      ensures !MatchesAt(r, j, FieldValue(field))
    {
      assert r[j] == lines[j] && r[j + 1] == lines[j + 1];
      assert !MatchesAt(lines, j, FieldValue(field));
    }
    FirstIs(r, FieldValue(field), i);
    assert r[i + 1][|ValueIndent|..] == v;
  }

  /** Reading a key back after writing it gives the value written. */
  lemma ReadBackKey(lines: seq<string>, key: string, v: string)
    requires First(lines, KeyLine(key)).Some?
    ensures FirstCapture(WriteKey(lines, key, v), KeyLine(key)) == Some(v)
  {
    var r := WriteKey(lines, key, v);
    var i := First(lines, KeyLine(key)).value;
    assert HasPrefix(r[i], KeyPrefix(key)) by {
      assert r[i][..|KeyPrefix(key)|] == KeyPrefix(key);
    }
    forall j: nat | j < i
      ensures !MatchesAt(r, j, KeyLine(key))
    {
      assert r[j] == lines[j];
      assert !MatchesAt(lines, j, KeyLine(key));
    }
    FirstIs(r, KeyLine(key), i);
    assert r[i][|KeyPrefix(key)|..] == v;
  }

  /** The index `o` moved down by `d` lines when it lies after line `at`. */
  function ShiftAfter(o: Option<nat>, at: nat, d: nat): Option<nat>
  {
    if o.Some? && o.value > at then Some(o.value + d) else o
  }

  /** `after` is `before` with line `i + 1` replaced by `entries`, stated line by line. */
  predicate Spliced(before: seq<string>, after: seq<string>, i: nat, entries: seq<string>)
  {
    && i + 2 <= |before|
    && |entries| >= 1
    && |after| == |before| + |entries| - 1
    && (forall k :: 0 <= k <= i ==> after[k] == before[k])
    && (forall k :: 0 <= k < |entries| ==> after[i + 1 + k] == entries[k])
    && (forall k :: i + 2 <= k < |before| ==> after[k + |entries| - 1] == before[k])
  }

  /** What ListWritten says about a found list field, line by line. */
  lemma ListWrittenSpliced(before: seq<string>, after: seq<string>, field: string, entries: seq<string>)
    requires |entries| >= 1
    requires ListWritten(before, after, field, entries)
    requires First(before, ListHead(field)).Some?
    ensures Spliced(before, after, First(before, ListHead(field)).value, entries)
  {
    var i := First(before, ListHead(field)).value;
    forall k | 0 <= k <= i
      ensures after[k] == before[k]
    {
      assert after[..i + 1][k] == before[..i + 1][k];
    }
    forall k | 0 <= k < |entries|
      ensures after[i + 1 + k] == entries[k]
    {
      assert after[i + 1..i + 1 + |entries|][k] == entries[k];
    }
    forall k | i + 2 <= k < |before|
      ensures after[k + |entries| - 1] == before[k]
    {
      assert after[i + 1 + |entries|..][k - i - 2] == before[i + 2..][k - i - 2];
    }
  }

  /** Before the splice, a match is unaffected (the header line's successor stays a value line). */
  lemma SplicedBefore(before: seq<string>, after: seq<string>, i: nat, entries: seq<string>, p: Pattern, j: nat)
    requires Spliced(before, after, i, entries) && j <= i
    requires IsValueLine(before[i + 1]) && IsValueLine(entries[0])
    ensures MatchesAt(after, j, p) == MatchesAt(before, j, p)
    ensures Captures(p) && MatchesAt(before, j, p) && CaptureLine(j, p) <= i ==>
              CaptureAt(after, j, p) == CaptureAt(before, j, p)
  {
    assert after[j] == before[j];
    if j < i {
      assert after[j + 1] == before[j + 1];
    } else {
      assert after[i + 1] == entries[0];
    }
  }

  /** Inside the splice, an independent pattern matches nowhere. */
  lemma SplicedInside(before: seq<string>, after: seq<string>, i: nat, entries: seq<string>, p: Pattern, j: nat)
    requires Spliced(before, after, i, entries) && AllValueLines(entries) && Independent(p)
    requires i + 1 <= j < i + 1 + |entries|
    ensures !MatchesAt(after, j, p)
  {
    assert after[j] == entries[j - i - 1];
    ValueLineMatchesNothing(after[j], p);
  }

  /** After the splice, matches and captures move down by the lines added. */
  lemma SplicedAfter(before: seq<string>, after: seq<string>, i: nat, entries: seq<string>, p: Pattern, j: nat)
    requires Spliced(before, after, i, entries) && i + 2 <= j
    ensures MatchesAt(after, j + |entries| - 1, p) == MatchesAt(before, j, p)
    ensures Captures(p) && MatchesAt(before, j, p) ==>
              CaptureAt(after, j + |entries| - 1, p) == CaptureAt(before, j, p)
  {
    if j < |before| {
      assert after[j + |entries| - 1] == before[j];
      if j + 1 < |before| {
        assert after[j + 1 + |entries| - 1] == before[j + 1];
      }
    }
  }

  /** Where line `t` of the spliced spec came from, for lines outside the splice. */
  function Origin(t: nat, i: nat, d: nat): nat
  {
    if t <= i then t else if t >= i + 2 + d then t - d else i + 1
  }

  /** Every match in the spliced spec comes from a match at its origin. */
  lemma SplicedMatchHasOrigin(before: seq<string>, after: seq<string>, i: nat, entries: seq<string>, p: Pattern, t: nat)
    requires Spliced(before, after, i, entries) && AllValueLines(entries) && Independent(p)
    requires IsValueLine(before[i + 1])
    requires MatchesAt(after, t, p)
    ensures Origin(t, i, |entries| - 1) != i + 1
    ensures MatchesAt(before, Origin(t, i, |entries| - 1), p)
  {
    var d := |entries| - 1;
    if t <= i {
      SplicedBefore(before, after, i, entries, p, t);
    } else if t <= i + 1 + d {
      SplicedInside(before, after, i, entries, p, t);
    } else {
      SplicedAfter(before, after, i, entries, p, t - d);
    }
  }

  /** The leftmost match in the spliced spec is the old one, moved down by the lines added. */
  lemma SplicedFirst(before: seq<string>, after: seq<string>, i: nat, entries: seq<string>, p: Pattern)
    requires Spliced(before, after, i, entries) && AllValueLines(entries) && Independent(p)
    requires IsValueLine(before[i + 1])
    ensures First(after, p) == ShiftAfter(First(before, p), i, |entries| - 1)
  {
    var d := |entries| - 1;
    assert !MatchesAt(before, i + 1, p) by {
      ValueLineMatchesNothing(before[i + 1], p);
    }
    match First(before, p)
    case None =>
      forall t: nat | MatchesAt(after, t, p)
        ensures false
      {
        SplicedMatchHasOrigin(before, after, i, entries, p, t);
      }
    case Some(j) =>
      var target := if j <= i then j else j + d;
      forall t: nat | t < target && MatchesAt(after, t, p)
        ensures false
      {
        SplicedMatchHasOrigin(before, after, i, entries, p, t);
      }
      if j <= i {
        SplicedBefore(before, after, i, entries, p, j);
      } else {
        SplicedAfter(before, after, i, entries, p, j);
      }
      FirstIs(after, p, target);
  }

  /** The spliced spec keeps every capture of a pattern other than the spliced field's own. */
  lemma SplicedCapture(before: seq<string>, after: seq<string>, i: nat, entries: seq<string>, field: string, p: Pattern)
    requires Spliced(before, after, i, entries) && AllValueLines(entries) && Independent(p)
    requires IsValueLine(before[i + 1]) && before[i] == Header(field)
    requires Captures(p) && p != FieldValue(field)
    ensures FirstCapture(after, p) == FirstCapture(before, p)
  {
    SplicedFirst(before, after, i, entries, p);
    assert !MatchesAt(before, i + 1, p) by {
      ValueLineMatchesNothing(before[i + 1], p);
    }
    if First(before, p).Some? {
      var j := First(before, p).value;
      if j <= i {
        if p.FieldValue? {
          HeaderInjective(field, p.field);
        }
        SplicedBefore(before, after, i, entries, p, j);
      } else {
        SplicedAfter(before, after, i, entries, p, j);
      }
    }
  }

  /**
   * Writing a list whose first value line exists keeps the leftmost match of
   * every independent pattern, moved down by the lines the list added, and
   * keeps every capture but the written field's own.
   */
  lemma WriteListKeeps(lines: seq<string>, field: string, entries: seq<string>, p: Pattern)
    requires IsName(field) && Independent(p)
    requires |entries| >= 1 && AllValueLines(entries)
    requires First(lines, ListHead(field)).Some? ==> IsValueLine(lines[First(lines, ListHead(field)).value + 1])
    ensures First(WriteList(lines, field, entries), p) ==
              match First(lines, ListHead(field))
              case None => First(lines, p)
              case Some(i) => ShiftAfter(First(lines, p), i, |entries| - 1)
    ensures Captures(p) && p != FieldValue(field) ==>
              FirstCapture(WriteList(lines, field, entries), p) == FirstCapture(lines, p)
  {
    var r := WriteList(lines, field, entries);
    match First(lines, ListHead(field))
    case None =>
    case Some(i) =>
      ListWrittenSpliced(lines, r, field, entries);
      SplicedFirst(lines, r, i, entries, p);
      if Captures(p) && p != FieldValue(field) {
        SplicedCapture(lines, r, i, entries, field, p);
      }
  }
}

=== FILE: spec_lines.dfy ===
/**
 * The few regular expressions the installer applies to extension spec text,
 * stated as operations on the spec's lines. Each pattern is anchored at the
 * start of a line (`^` under the `m` flag) and ends at the end of a line, so
 * a match is a run of one or two whole lines. The model assumes the text has
 * no carriage return, U+2028 or U+2029, so that the regular expressions'
 * line boundaries are exactly the line feeds.
 */
module SpecLines {
  import opened Results
  import opened Text

  /** The indentation that marks a value line under a field header. */
  const ValueIndent: string := "\t\t"

  predicate IsValueLine(line: string)
  {
    HasPrefix(line, ValueIndent)
  }

  /** Every line is a value line. */
  predicate AllValueLines(lines: seq<string>)
  {
    forall k :: 0 <= k < |lines| ==> IsValueLine(lines[k])
  }

  /** The header line of a field inside `ExtConfig`: a tab, the name, a colon. */
  function Header(field: string): string
  {
    "\t" + field + ":"
  }

  /** The start of a top-level key line such as `ExtP4USER:\t<value>`. */
  function KeyPrefix(key: string): string
  {
    key + ":\t"
  }

  /** Field and key names as the extension spells them: non-empty, no leading tab. */
  predicate IsName(name: string)
  {
    |name| > 0 && name[0] != '\t'
  }

  /** The line patterns the installer searches for. */
  datatype Pattern =
      /** `/^<key>:\t(.*)$/m`: one line starting with the key and a tab. */
    | KeyLine(key: string)
      /** `/^\t<field>:\n\t\t(.*)$/m`: the header line, then a value line. */
    | FieldValue(field: string)
      /** `/^\t<field>:\n.*$/m`: the header line, then any line at all. */
    | ListHead(field: string)
      /** A line equal to the given text (an `Array.findIndex` test). */
    | ExactLine(text: string)
      /** A line that does not start with two tabs (an `Array.findIndex` test). */
    | NotValueLine

  /** How many lines a match of the pattern spans. */
  function Width(p: Pattern): nat
  {
    if p.FieldValue? || p.ListHead? then 2 else 1
  }

  /** The pattern matches starting at line `i`. */
  predicate MatchesAt(lines: seq<string>, i: nat, p: Pattern)
  {
    i + Width(p) <= |lines| &&
    match p
    case KeyLine(k) => HasPrefix(lines[i], KeyPrefix(k))
    case FieldValue(f) => lines[i] == Header(f) && IsValueLine(lines[i + 1])
    case ListHead(f) => lines[i] == Header(f)
    case ExactLine(t) => lines[i] == t
    case NotValueLine => !IsValueLine(lines[i])
  }

  /** The first line at or after `from` where the pattern matches. */
  function FindFrom(lines: seq<string>, p: Pattern, from: nat): (r: Option<nat>)
    requires from <= |lines|
    ensures r.Some? ==> from <= r.value < |lines| && MatchesAt(lines, r.value, p)
    ensures r.Some? ==> forall j: nat :: from <= j < r.value ==> !MatchesAt(lines, j, p)
    ensures r.None? ==> forall j: nat :: from <= j ==> !MatchesAt(lines, j, p)
    decreases |lines| - from
  {
    if from == |lines| then None
    else if MatchesAt(lines, from, p) then Some(from)
    else FindFrom(lines, p, from + 1)
  }

  /** The leftmost match, as a non-global regular expression finds it. */
  function First(lines: seq<string>, p: Pattern): (r: Option<nat>)
    ensures r.Some? ==> r.value < |lines| && MatchesAt(lines, r.value, p)
    ensures r.Some? ==> forall j: nat :: j < r.value ==> !MatchesAt(lines, j, p)
    ensures r.None? ==> forall j: nat :: !MatchesAt(lines, j, p)
  {
    FindFrom(lines, p, 0)
  }

  /** A match with no earlier match is the leftmost one. */
  lemma FirstIs(lines: seq<string>, p: Pattern, i: nat)
    requires MatchesAt(lines, i, p)
    requires forall j: nat :: j < i ==> !MatchesAt(lines, j, p)
    ensures First(lines, p) == Some(i)
  {
  }

  /** Two specs on which a pattern matches at the same lines have the same leftmost match. */
  lemma SameMatchesSameFirst(a: seq<string>, b: seq<string>, p: Pattern)
    requires forall j: nat :: MatchesAt(a, j, p) == MatchesAt(b, j, p)
    ensures First(a, p) == First(b, p)
  {
    if First(a, p).Some? {
      FirstIs(b, p, First(a, p).value);
    }
  }

  /** Patterns with a capture group `(.*)`. */
  predicate Captures(p: Pattern)
  {
    p.KeyLine? || p.FieldValue?
  }

  /** The text of the capture group `(.*)` of a match at line `i`. */
  function CaptureAt(lines: seq<string>, i: nat, p: Pattern): string
    requires Captures(p) && MatchesAt(lines, i, p)
  {
    match p
    case KeyLine(k) => lines[i][|KeyPrefix(k)|..]
    case FieldValue(_) => lines[i + 1][|ValueIndent|..]
  }

  /** `match[1]` of `text.match(re)`, or None where the match is null. */
  function FirstCapture(lines: seq<string>, p: Pattern): (r: Option<string>)
    requires Captures(p)
    ensures r.None? <==> First(lines, p).None?
    ensures r.Some? && p.KeyLine? ==> lines[First(lines, p).value] == KeyPrefix(p.key) + r.value
    ensures r.Some? && p.FieldValue? ==> lines[First(lines, p).value + 1] == ValueIndent + r.value
  {
    match First(lines, p)
    case None => None
    case Some(i) => Some(CaptureAt(lines, i, p))
  }

  /** `text.replace(re, replacement)`: the lines of the leftmost match give way to `repl`. */
  function ReplaceFirst(lines: seq<string>, p: Pattern, repl: seq<string>): seq<string>
  {
    match First(lines, p)
    case None => lines
    case Some(i) => lines[..i] + repl + lines[i + Width(p)..]
  }

  /** Without a match nothing changes; with one, the lines before and after it stay and `repl` sits in between. */
  lemma ReplaceFirstSplices(lines: seq<string>, p: Pattern, repl: seq<string>)
    ensures First(lines, p).None? ==> ReplaceFirst(lines, p, repl) == lines
    ensures First(lines, p).Some? ==> var i := First(lines, p).value; var r := ReplaceFirst(lines, p, repl);
              && |r| == |lines| - Width(p) + |repl|
              && r[..i] == lines[..i]
              && r[i..i + |repl|] == repl
              && r[i + |repl|..] == lines[i + Width(p)..]
  {
  }

  // ---------------------------------------------------------------------------
  // The three rewrites, and what each does to the spec

  /** `after` is `before` with the value line of the first `field` entry set to `v`. */
  predicate FieldWritten(before: seq<string>, after: seq<string>, field: string, v: string)
  {
    match First(before, FieldValue(field))
    case None => after == before
    case Some(i) =>
      && |after| == |before|
      && after[i + 1] == ValueIndent + v
      && forall k :: 0 <= k < |before| && k != i + 1 ==> after[k] == before[k]
  }

  /** `after` is `before` with the first `key` line set to carry `v`. */
  predicate KeyWritten(before: seq<string>, after: seq<string>, key: string, v: string)
  {
    match First(before, KeyLine(key))
    case None => after == before
    case Some(i) =>
      && |after| == |before|
      && after[i] == KeyPrefix(key) + v
      && forall k :: 0 <= k < |before| && k != i ==> after[k] == before[k]
  }

  /**
   * `after` is `before` with the one line after the first `field` header
   * replaced by `entries`; the lines after that one stay where they were.
   */
  predicate ListWritten(before: seq<string>, after: seq<string>, field: string, entries: seq<string>)
  {
    match First(before, ListHead(field))
    case None => after == before
    case Some(i) =>
      && |after| == |before| + |entries| - 1
      && after[..i + 1] == before[..i + 1]
      && after[i + 1..i + 1 + |entries|] == entries
      && after[i + 1 + |entries|..] == before[i + 2..]
  }

  /** `/^\t<field>:\n\t\t.*$/m` replaced by `\t<field>:\n\t\t<v>`. */
  function WriteField(lines: seq<string>, field: string, v: string): (r: seq<string>)
    ensures FieldWritten(lines, r, field, v)
  {
    ReplaceFirst(lines, FieldValue(field), [Header(field), ValueIndent + v])
  }

  /** `/^<key>:\t.*$/m` replaced by `<key>:\t<v>`. */
  function WriteKey(lines: seq<string>, key: string, v: string): (r: seq<string>)
    ensures KeyWritten(lines, r, key, v)
  {
    ReplaceFirst(lines, KeyLine(key), [KeyPrefix(key) + v])
  }

  /** `/^\t<field>:\n.*$/m` replaced by the header followed by `entries`. */
  function WriteList(lines: seq<string>, field: string, entries: seq<string>): (r: seq<string>)
    ensures ListWritten(lines, r, field, entries)
  {
    ReplaceFirst(lines, ListHead(field), [Header(field)] + entries)
  }
}

=== FILE: substitution.dfy ===
/**
 * JavaScript's `String.prototype.replace` with a string replacement does not
 * insert the replacement verbatim: `$$`, `$&`, `` $` `` and `$'` in it are
 * expanded (GetSubstitution, section 22.1.3.19.1 of ECMA-262; with no
 * capture groups these are the only patterns). The installer builds its
 * replacements by interpolating carried values, so a value containing `$`
 * is written differently from how it was read. This module models the three
 * kinds of write as the installer performs them; the rest of the model uses the
 * verbatim writes of `SpecLines`.
 */
module Substitution {
  import opened Results
  import opened Text
  import opened SpecLines
  import opened SpecFrames
  import opened ListFrames

  const Dollar: char := '$'

  /**
   * GetSubstitution for a match with no capture groups: `matched` is the
   * matched text, `before` and `after` the text on either side of it.
   */
  function Expand(template: string, matched: string, before: string, after: string): string
    decreases |template|
  {
    if |template| == 0 then ""
    else if template[0] == Dollar && |template| >= 2 then
      var next := template[1];
      if next == Dollar then [Dollar] + Expand(template[2..], matched, before, after)
      else if next == '&' then matched + Expand(template[2..], matched, before, after)
      else if next == '`' then before + Expand(template[2..], matched, before, after)
      else if next == '\'' then after + Expand(template[2..], matched, before, after)
      else [Dollar] + Expand(template[1..], matched, before, after)
    else [template[0]] + Expand(template[1..], matched, before, after)
  }

  /** A template without `$` is inserted as it is. */
  lemma {:induction false} ExpandWithoutDollar(template: string, matched: string, before: string, after: string)
    requires Dollar !in template
    ensures Expand(template, matched, before, after) == template
  {
    if |template| > 0 {
      assert template[0] in template;
      assert forall c :: c in template[1..] ==> c in template;
      ExpandWithoutDollar(template[1..], matched, before, after);
      assert [template[0]] + template[1..] == template;
    }
  }

  /** The text of the spec before line `i`, up to and including its line feed. */
  function TextBefore(lines: seq<string>, i: nat): string
    requires i <= |lines|
  {
    if i == 0 then "" else Join(lines[..i]) + [LineFeed]
  }

  /** The text of the spec from the line feed ending line `j - 1` on. */
  function TextAfter(lines: seq<string>, j: nat): string
    requires j <= |lines|
  {
    if j == |lines| then "" else [LineFeed] + Join(lines[j..])
  }

  /**
   * `text.replace(re, template)` as the installer performs it, on the lines of
   * `text`: the template is expanded against the leftmost match and the text
   * around it, and the lines of the result take the place of the match.
   */
  function ReplaceAsWritten(lines: seq<string>, p: Pattern, template: string): (r: seq<string>)
    ensures First(lines, p).None? ==> r == lines
    ensures First(lines, p).Some? ==> var i := First(lines, p).value;
              && |r| >= |lines| - Width(p) + 1
              && r[..i] == lines[..i]
              && r[|r| - (|lines| - i - Width(p))..] == lines[i + Width(p)..]
    ensures First(lines, p).Some? ==> var i := First(lines, p).value; var j := i + Width(p);
              r[i..|r| - (|lines| - j)] ==
                Split(Expand(template, Join(lines[i..j]), TextBefore(lines, i), TextAfter(lines, j)))
  {
    match First(lines, p)
    case None => lines
    case Some(i) =>
      var j := i + Width(p);
      var repl := Split(Expand(template, Join(lines[i..j]), TextBefore(lines, i), TextAfter(lines, j)));
      var r := lines[..i] + repl + lines[j..];
      assert r[..i] == lines[..i];
      assert r[|r| - (|lines| - j)..] == lines[j..];
      assert r[i..|r| - (|lines| - j)] == repl;
      r
  }

  /** `/^\t<field>:\n\t\t.*$/m` replaced by `\t<field>:\n\t\t${v}`, as written. */
  function WriteFieldAsWritten(lines: seq<string>, field: string, v: string): seq<string>
  {
    ReplaceAsWritten(lines, FieldValue(field), Header(field) + [LineFeed] + ValueIndent + v)
  }

  /** `/^<key>:\t.*$/m` replaced by `<key>:\t${v}`, as written. */
  function WriteKeyAsWritten(lines: seq<string>, key: string, v: string): seq<string>
  {
    ReplaceAsWritten(lines, KeyLine(key), KeyPrefix(key) + v)
  }

  /** `/^\t<field>:\n.*$/m` replaced by `\t<field>:\n${text}`, where `text` is the joined list, as written. */
  function WriteListAsWritten(lines: seq<string>, field: string, text: string): seq<string>
  {
    ReplaceAsWritten(lines, ListHead(field), Header(field) + [LineFeed] + text)
  }

  /** Where every context expands the template to the text `t`, the replacement is the lines of `t`. */
  lemma AsWrittenWritesExpansion(lines: seq<string>, p: Pattern, template: string, t: string)
    requires forall matched, before, after :: Expand(template, matched, before, after) == t
    ensures ReplaceAsWritten(lines, p, template) == ReplaceFirst(lines, p, Split(t))
  {
    if First(lines, p).Some? {
      var i := First(lines, p).value;
      var j := i + Width(p);
      assert Expand(template, Join(lines[i..j]), TextBefore(lines, i), TextAfter(lines, j)) == t;
    }
  }

  /** Names the installer writes: no `$` and no line feed. */
  predicate PlainName(name: string)
  {
    Dollar !in name && LineFeed !in name
  }

  /** Expanding a `$`-free prefix keeps it and goes on with the rest. */
  lemma {:induction false} ExpandPrefix(plain: string, rest: string, matched: string, before: string, after: string)
    requires Dollar !in plain
    ensures Expand(plain + rest, matched, before, after) == plain + Expand(rest, matched, before, after)
  {
    if |plain| > 0 {
      assert plain[0] in plain;
      assert forall c :: c in plain[1..] ==> c in plain;
      assert (plain + rest)[0] == plain[0];
      assert (plain + rest)[1..] == plain[1..] + rest;
      ExpandPrefix(plain[1..], rest, matched, before, after);
      assert [plain[0]] + plain[1..] == plain;
    } else {
      assert plain + rest == rest;
    }
  }

  /** A field header of a plain name is a single line without `$`. */
  lemma PlainHeader(field: string)
    requires PlainName(field)
    ensures IsLine(Header(field)) && Dollar !in Header(field)
    ensures Dollar !in Header(field) + [LineFeed] + ValueIndent
    ensures Dollar !in Header(field) + [LineFeed]
  {
    assert forall c :: c in Header(field) ==> c == '\t' || c in field || c == ':';
    assert forall c :: c in Header(field) + [LineFeed] + ValueIndent ==> c in Header(field) || c == LineFeed || c == '\t';
    assert forall c :: c in Header(field) + [LineFeed] ==> c in Header(field) || c == LineFeed;
  }

  /** A key prefix of a plain name has no `$`. */
  lemma PlainKeyPrefix(key: string)
    requires PlainName(key)
    ensures Dollar !in KeyPrefix(key) && IsLine(KeyPrefix(key))
  {
    assert forall c :: c in KeyPrefix(key) ==> c in key || c == ':' || c == '\t';
  }

  /** Where every context expands `v` to the single line `w`, the installer writes the field value `w` verbatim. */
  lemma FieldAsWrittenExpands(lines: seq<string>, field: string, v: string, w: string)
    requires PlainName(field) && IsLine(w)
    requires forall matched, before, after :: Expand(v, matched, before, after) == w
    ensures WriteFieldAsWritten(lines, field, v) == WriteField(lines, field, w)
  {
    var prefix := Header(field) + [LineFeed] + ValueIndent;
    PlainHeader(field);
    forall matched, before, after
      ensures Expand(prefix + v, matched, before, after) == prefix + w
    {
      ExpandPrefix(prefix, v, matched, before, after);
    }
    assert Header(field) + [LineFeed] + ValueIndent + v == prefix + v;
    AsWrittenWritesExpansion(lines, FieldValue(field), prefix + v, prefix + w);
    assert IsLine(ValueIndent + w) by {
      assert forall c :: c in ValueIndent + w ==> c == '\t' || c in w;
    }
    assert prefix + w == Header(field) + [LineFeed] + (ValueIndent + w);
    SplitAfterLine(Header(field), ValueIndent + w);
    SplitLine(ValueIndent + w);
    assert Split(prefix + w) == [Header(field), ValueIndent + w];
  }

  /** Where every context expands `v` to the single line `w`, the installer writes the key value `w` verbatim. */
  lemma KeyAsWrittenExpands(lines: seq<string>, key: string, v: string, w: string)
    requires PlainName(key) && IsLine(w)
    requires forall matched, before, after :: Expand(v, matched, before, after) == w
    ensures WriteKeyAsWritten(lines, key, v) == WriteKey(lines, key, w)
  {
    var prefix := KeyPrefix(key);
    PlainKeyPrefix(key);
    forall matched, before, after
      ensures Expand(prefix + v, matched, before, after) == prefix + w
    {
      ExpandPrefix(prefix, v, matched, before, after);
    }
    AsWrittenWritesExpansion(lines, KeyLine(key), prefix + v, prefix + w);
    assert IsLine(prefix + w) by {
      assert forall c :: c in prefix + w ==> c in prefix || c in w;
    }
    SplitLine(prefix + w);
  }

  /** Where every context expands the list text to the joined `entries`, the installer writes `entries` verbatim. */
  lemma ListAsWrittenExpands(lines: seq<string>, field: string, text: string, entries: seq<string>)
    requires PlainName(field) && |entries| >= 1 && AreLines(entries)
    requires forall matched, before, after :: Expand(text, matched, before, after) == Join(entries)
    ensures WriteListAsWritten(lines, field, text) == WriteList(lines, field, entries)
  {
    var prefix := Header(field) + [LineFeed];
    PlainHeader(field);
    forall matched, before, after
      ensures Expand(prefix + text, matched, before, after) == prefix + Join(entries)
    {
      ExpandPrefix(prefix, text, matched, before, after);
    }
    AsWrittenWritesExpansion(lines, ListHead(field), prefix + text, prefix + Join(entries));
    SplitAfterLine(Header(field), Join(entries));
    SplitJoin(entries);
  }

  /** For a single-line field value without `$` the installer's write is the verbatim write. */
  lemma AsWrittenIsVerbatimWithoutDollar(lines: seq<string>, field: string, v: string)
    requires PlainName(field) && Dollar !in v && IsLine(v)
    ensures WriteFieldAsWritten(lines, field, v) == WriteField(lines, field, v)
  {
    forall matched, before, after
      ensures Expand(v, matched, before, after) == v
    {
      ExpandWithoutDollar(v, matched, before, after);
    }
    FieldAsWrittenExpands(lines, field, v, v);
  }

  /** For a single-line key value without `$` the installer's write is the verbatim write. */
  lemma KeyAsWrittenIsVerbatimWithoutDollar(lines: seq<string>, key: string, v: string)
    requires PlainName(key) && Dollar !in v && IsLine(v)
    ensures WriteKeyAsWritten(lines, key, v) == WriteKey(lines, key, v)
  {
    forall matched, before, after
      ensures Expand(v, matched, before, after) == v
    {
      ExpandWithoutDollar(v, matched, before, after);
    }
    KeyAsWrittenExpands(lines, key, v, v);
  }

  /** For list entries without `$` the installer's write of their joined text is the verbatim write. */
  lemma ListAsWrittenIsVerbatimWithoutDollar(lines: seq<string>, field: string, entries: seq<string>)
    requires PlainName(field) && |entries| >= 1 && AreLines(entries) && Dollar !in Join(entries)
    ensures WriteListAsWritten(lines, field, Join(entries)) == WriteList(lines, field, entries)
  {
    forall matched, before, after
      ensures Expand(Join(entries), matched, before, after) == Join(entries)
    {
      ExpandWithoutDollar(Join(entries), matched, before, after);
    }
    ListAsWrittenExpands(lines, field, Join(entries), entries);
  }

  /** An empty list text is written as one empty line under the header, not as no entries. */
  lemma ListAsWrittenEmptyText(lines: seq<string>, field: string)
    requires PlainName(field)
    ensures WriteListAsWritten(lines, field, "") == WriteList(lines, field, [""])
  {
    assert Join([""]) == "";
    ListAsWrittenIsVerbatimWithoutDollar(lines, field, [""]);
  }

  /** `$$` between `$`-free text collapses to a single `$`, whatever the context. */
  lemma ExpandDollarPair(p: string, q: string, matched: string, before: string, after: string)
    requires Dollar !in p && Dollar !in q
    ensures Expand(p + [Dollar, Dollar] + q, matched, before, after) == p + [Dollar] + q
  {
    var t := [Dollar, Dollar] + q;
    assert p + [Dollar, Dollar] + q == p + t;
    ExpandPrefix(p, t, matched, before, after);
    assert t[2..] == q;
    ExpandWithoutDollar(q, matched, before, after);
  }

  /** `p$$q`, with `p` and `q` single lines without `$`: every context expands it to the single line `p$q`. */
  lemma DollarPairExpands(p: string, q: string)
    requires Dollar !in p && Dollar !in q && IsLine(p) && IsLine(q)
    ensures forall matched, before, after :: Expand(p + [Dollar, Dollar] + q, matched, before, after) == p + [Dollar] + q
    ensures IsLine(p + [Dollar] + q)
    ensures p + [Dollar] + q != p + [Dollar, Dollar] + q
  {
    forall matched, before, after
      ensures Expand(p + [Dollar, Dollar] + q, matched, before, after) == p + [Dollar] + q
    {
      ExpandDollarPair(p, q, matched, before, after);
    }
    assert forall c :: c in p + [Dollar] + q ==> c in p || c == Dollar || c in q;
    assert |p + [Dollar] + q| != |p + [Dollar, Dollar] + q|;
  }

  /**
   * A carried field value `p$$q` (with no other `$`) is written as `p$q`:
   * reading the field back gives a value other than the one carried,
   * whereas the verbatim write reads back what it wrote.
   */
  lemma DollarPairCollapses(lines: seq<string>, field: string, p: string, q: string)
    requires PlainName(field) && First(lines, FieldValue(field)).Some?
    requires Dollar !in p && Dollar !in q && IsLine(p) && IsLine(q)
    ensures var carried := p + [Dollar, Dollar] + q;
            && FirstCapture(WriteFieldAsWritten(lines, field, carried), FieldValue(field)) == Some(p + [Dollar] + q)
            && p + [Dollar] + q != carried
            && FirstCapture(WriteField(lines, field, carried), FieldValue(field)) == Some(carried)
  {
    var carried := p + [Dollar, Dollar] + q;
    var w := p + [Dollar] + q;
    DollarPairExpands(p, q);
    FieldAsWrittenExpands(lines, field, carried, w);
    ReadBackField(lines, field, w);
    ReadBackField(lines, field, carried);
  }

  /** A carried ExtP4USER value `p$$q` is written as `p$q`, where the verbatim write reads back `p$$q`. */
  lemma KeyDollarPairCollapses(lines: seq<string>, key: string, p: string, q: string)
    requires PlainName(key) && First(lines, KeyLine(key)).Some?
    requires Dollar !in p && Dollar !in q && IsLine(p) && IsLine(q)
    ensures var carried := p + [Dollar, Dollar] + q;
            && FirstCapture(WriteKeyAsWritten(lines, key, carried), KeyLine(key)) == Some(p + [Dollar] + q)
            && p + [Dollar] + q != carried
            && FirstCapture(WriteKey(lines, key, carried), KeyLine(key)) == Some(carried)
  {
    var carried := p + [Dollar, Dollar] + q;
    var w := p + [Dollar] + q;
    DollarPairExpands(p, q);
    KeyAsWrittenExpands(lines, key, carried, w);
    ReadBackKey(lines, key, w);
    ReadBackKey(lines, key, carried);
  }

  /**
   * A carried one-entry list `\t\tp$$q` is written as `\t\tp$q`: the entry
   * under the header is not the one carried, whereas the verbatim write puts
   * the carried entry there.
   */
  lemma ListDollarPairCollapses(lines: seq<string>, field: string, p: string, q: string)
    requires PlainName(field) && First(lines, ListHead(field)).Some?
    requires Dollar !in p && Dollar !in q && IsLine(p) && IsLine(q)
    ensures var carried := [ValueIndent + p + [Dollar, Dollar] + q];
            && ListAt(WriteListAsWritten(lines, field, Join(carried)), field, [ValueIndent + p + [Dollar] + q])
            && [ValueIndent + p + [Dollar] + q] != carried
            && ListAt(WriteList(lines, field, carried), field, carried)
  {
    var vp := ValueIndent + p;
    assert Dollar !in vp && IsLine(vp) by {
      assert forall c :: c in vp ==> c == '\t' || c in p;
    }
    var carried := [vp + [Dollar, Dollar] + q];
    var written := [vp + [Dollar] + q];
    DollarPairExpands(vp, q);
    assert Join(carried) == vp + [Dollar, Dollar] + q;
    assert Join(written) == vp + [Dollar] + q;
    assert AreLines(written);
    ListAsWrittenExpands(lines, field, Join(carried), written);
    ReadBackList(lines, field, written);
    ReadBackList(lines, field, carried);
    assert ValueIndent + p + [Dollar, Dollar] + q == vp + [Dollar, Dollar] + q;
    assert ValueIndent + p + [Dollar] + q == vp + [Dollar] + q;
  }

  /** The smallest instance: a Service-URL of `a$$b` is written back as `a$b`. */
  lemma ServiceUrlDollarExample()
    ensures var lines := ["\tService-URL:", "\t\tx"];
            FirstCapture(WriteFieldAsWritten(lines, "Service-URL", "a$$b"), FieldValue("Service-URL")) == Some("a$b")
  {
    var lines := ["\tService-URL:", "\t\tx"];
    assert MatchesAt(lines, 0, FieldValue("Service-URL")) by {
      assert lines[1][..2] == ValueIndent;
    }
    assert "a$$b" == "a" + [Dollar, Dollar] + "b";
    assert "a$b" == "a" + [Dollar] + "b";
    assert PlainName("Service-URL");
    DollarPairCollapses(lines, "Service-URL", "a", "b");
  }
}

=== FILE: text.dfy ===
/**
 * Spec text as the installer handles it: a string cut into lines at every
 * line feed (JavaScript `split('\n')`) and glued back with line feeds
 * (`join('\n')`).
 */
module Text {

  const LineFeed: char := '\n'

  /** JavaScript `s.startsWith(p)`. */
  predicate HasPrefix(s: string, p: string)
  {
    |p| <= |s| && s[..|p|] == p
  }

  /** No line feed inside: what every piece produced by Split looks like. */
  predicate IsLine(s: string)
  {
    LineFeed !in s
  }

  /** Every element is a single line. */
  predicate AreLines(ls: seq<string>)
  {
    forall k :: 0 <= k < |ls| ==> IsLine(ls[k])
  }

  /** JavaScript `s.split('\n')`: the pieces between line feeds, at least one. */
  function Split(s: string): (r: seq<string>)
    ensures |r| >= 1
    ensures AreLines(r)
  {
    if |s| == 0 then [""]
    else
      var rest := Split(s[1..]);
      assert s == [s[0]] + s[1..];
      if s[0] == LineFeed then [""] + rest
      else [[s[0]] + rest[0]] + rest[1..]
  }

  /** JavaScript `ls.join('\n')`. */
  function Join(ls: seq<string>): (r: string)
    ensures |ls| == 1 ==> r == ls[0]
  {
    if |ls| == 0 then ""
    else if |ls| == 1 then ls[0]
    else ls[0] + [LineFeed] + Join(ls[1..])
  }

  /** Putting a character in front of the first line puts it in front of the joined text. */
  lemma {:induction false} JoinPrepend(c: char, ls: seq<string>)
    requires |ls| >= 1
    ensures Join([[c] + ls[0]] + ls[1..]) == [c] + Join(ls)
  {
    var r := [[c] + ls[0]] + ls[1..];
    if |ls| > 1 {
      assert r[1..] == ls[1..];
      assert Join(r) == ([c] + ls[0]) + [LineFeed] + Join(ls[1..]);
      assert Join(ls) == ls[0] + [LineFeed] + Join(ls[1..]);
      assert ([c] + ls[0]) + [LineFeed] + Join(ls[1..]) == [c] + (ls[0] + [LineFeed] + Join(ls[1..]));
    }
  }

  /** Joining the pieces of a split gives back the original text. */
  lemma {:induction false} JoinSplit(s: string)
    ensures Join(Split(s)) == s
  {
    if |s| > 0 {
      var rest := Split(s[1..]);
      JoinSplit(s[1..]);
      assert s == [s[0]] + s[1..];
      if s[0] == LineFeed {
        var r := [""] + rest;
        assert Split(s) == r;
        assert r[1..] == rest;
      } else {
        assert Split(s) == [[s[0]] + rest[0]] + rest[1..];
        JoinPrepend(s[0], rest);
      }
    }
  }

  /** Splitting `a + "\n" + b` for a single line `a` yields `a` followed by the pieces of `b`. */
  lemma {:induction false} SplitAfterLine(a: string, b: string)
    requires IsLine(a)
    ensures Split(a + [LineFeed] + b) == [a] + Split(b)
  {
    if |a| == 0 {
      assert a + [LineFeed] + b == [LineFeed] + b;
      assert ([LineFeed] + b)[1..] == b;
    } else {
      var s := a + [LineFeed] + b;
      assert s[0] == a[0];
      assert s[1..] == a[1..] + [LineFeed] + b;
      assert a[0] in a;
      SplitAfterLine(a[1..], b);
      assert [a[0]] + a[1..] == a;
    }
  }

  /** A single line splits into itself. */
  lemma {:induction false} SplitLine(a: string)
    requires IsLine(a)
    ensures Split(a) == [a]
  {
    if |a| != 0 {
      assert a[0] in a;
      SplitLine(a[1..]);
      assert [a[0]] + a[1..] == a;
    }
  }

  /** Splitting the join of single lines gives back the lines. */
  lemma {:induction false} SplitJoin(ls: seq<string>)
    requires |ls| >= 1
    requires AreLines(ls)
    ensures Split(Join(ls)) == ls
  {
    if |ls| == 1 {
      SplitLine(ls[0]);
    } else {
      SplitJoin(ls[1..]);
      SplitAfterLine(ls[0], Join(ls[1..]));
      assert [ls[0]] + ls[1..] == ls;
    }
  }

  /** Joined lines that each carry the given non-empty prefix are empty exactly when there are none. */
  lemma JoinEmptyIffNoLines(ls: seq<string>, p: string)
    requires |p| > 0
    requires forall k :: 0 <= k < |ls| ==> HasPrefix(ls[k], p)
    ensures Join(ls) == "" <==> |ls| == 0
  {
    if |ls| > 1 {
      assert |Join(ls)| >= |ls[0]|;
    }
  }
}

=== FILE: www.dfy ===
/**
 * The listening port of the mock authentication service: the PORT
 * environment value (or 3000), read with `parseInt(val, 10)` as section
 * 19.2.5 of ECMA-262 defines it, and then taken as a port number, kept as
 * a pipe name, or refused. Numbers are exact integers here.
 */
module Www {
  import opened Results

  /** The port used when PORT is unset or empty. */
  const DefaultPort: string := "3000"

  /** What normalizePort returns: a number, the original string, or `false`. */
  datatype Port = PortNumber(number: nat) | PipeName(name: string) | Refused

  /** The value of `parseInt`: NaN or an integer. */
  datatype Parsed = NaN | Num(value: int)

  /** `getPort`: the PORT environment value when it is set and non-empty, else `'3000'`. */
  function GetPort(portVar: Option<string>): (r: string)
    ensures Truthy(portVar) ==> r == portVar.value
    ensures !Truthy(portVar) ==> r == DefaultPort
    ensures r != ""
  {
    OrElse(portVar, DefaultPort)
  }

  // ---------------------------------------------------------------------------
  // parseInt with radix 10

  /**
   * StrWhiteSpaceChar of ECMA-262: the WhiteSpace code points (tab, vertical
   * tab, form feed, the byte order mark and the space separators) and the
   * LineTerminator code points.
   */
  predicate IsStrWhiteSpace(c: char)
  {
    || c == '\t' || c == '\U{000B}' || c == '\U{000C}' || c == '\U{FEFF}'
    || c == ' ' || c == '\U{00A0}' || c == '\U{1680}' || ('\U{2000}' <= c <= '\U{200A}')
    || c == '\U{202F}' || c == '\U{205F}' || c == '\U{3000}'
    || c == '\n' || c == '\r' || c == '\U{2028}' || c == '\U{2029}'
  }

  predicate IsDigit(c: char)
  {
    '0' <= c <= '9'
  }

  function DigitValue(c: char): nat
    requires IsDigit(c)
  {
    c as int - '0' as int
  }

  /** Every character is a decimal digit. */
  predicate AllDigits(s: string)
  {
    forall k :: 0 <= k < |s| ==> IsDigit(s[k])
  }

  /** The text with its leading white space removed (TrimString with `start`). */
  function TrimStart(s: string): (r: string)
    ensures |r| <= |s| && r == s[|s| - |r|..]
    ensures forall k :: 0 <= k < |s| - |r| ==> IsStrWhiteSpace(s[k])
    ensures |r| > 0 ==> !IsStrWhiteSpace(r[0])
  {
    if |s| > 0 && IsStrWhiteSpace(s[0]) then TrimStart(s[1..]) else s
  }

  /** The longest prefix of decimal digits. */
  function DigitPrefix(s: string): (r: string)
    ensures |r| <= |s| && r == s[..|r|]
    ensures AllDigits(r)
    ensures |r| < |s| ==> !IsDigit(s[|r|])
  {
    if |s| > 0 && IsDigit(s[0]) then [s[0]] + DigitPrefix(s[1..]) else ""
  }

  /** The number a string of decimal digits denotes. */
  function DigitsValue(ds: string): nat
    requires AllDigits(ds)
  {
    if |ds| == 0 then 0 else DigitsValue(ds[..|ds| - 1]) * 10 + DigitValue(ds[|ds| - 1])
  }

  /** The text after an optional leading sign. */
  function Unsigned(t: string): string
  {
    if |t| > 0 && (t[0] == '-' || t[0] == '+') then t[1..] else t
  }

  /**
   * `parseInt(s, 10)`: NaN exactly when no number starts after the leading
   * white space, and negative only after a leading minus sign.
   */
  function ParseInt10(s: string): (r: Parsed)
    ensures r.NaN? <==> !StartsNumber(TrimStart(s))
    ensures r.Num? && r.value < 0 ==> |TrimStart(s)| > 0 && TrimStart(s)[0] == '-'
  {
    ParseTrimmed(TrimStart(s))
  }

  /** parseInt on text whose leading white space is already gone: an optional sign, then the leading digits. */
  function ParseTrimmed(t: string): (r: Parsed)
    ensures r.NaN? <==> !StartsNumber(t)
    ensures r.Num? && r.value < 0 ==> |t| > 0 && t[0] == '-'
  {
    var u := Unsigned(t);
    var ds := DigitPrefix(u);
    assert |ds| == 0 <==> !(|u| > 0 && IsDigit(u[0]));
    if |ds| == 0 then NaN
    else if |t| > 0 && t[0] == '-' then Num(-(DigitsValue(ds) as int))
    else Num(DigitsValue(ds))
  }

  /** After leading white space, a digit, or a sign and then a digit: a number can start here. */
  predicate StartsNumber(t: string)
  {
    || (|t| > 0 && IsDigit(t[0]))
    || (|t| > 1 && (t[0] == '-' || t[0] == '+') && IsDigit(t[1]))
  }

  /** Trimming skips a leading white-space character. */
  lemma {:induction false} TrimStartSkips(c: char, s: string)
    requires IsStrWhiteSpace(c)
    ensures TrimStart([c] + s) == TrimStart(s)
  {
    assert ([c] + s)[1..] == s;
  }

  /** Trimming keeps text that starts with anything else. */
  lemma TrimStartKeeps(s: string)
    requires |s| > 0 && !IsStrWhiteSpace(s[0])
    ensures TrimStart(s) == s
  {
  }

  /** Leading white space does not change what parseInt reads. */
  lemma {:induction false} ParseSkipsWhiteSpace(c: char, s: string)
    requires IsStrWhiteSpace(c)
    ensures ParseInt10([c] + s) == ParseInt10(s)
  {
    TrimStartSkips(c, s);
  }

  // ---------------------------------------------------------------------------
  // Decimal numerals

  /** The decimal numeral of `n`, without leading zeros: the reference for what parseInt reads. */
  function DecimalString(n: nat): (r: string)
    ensures |r| >= 1 && AllDigits(r)
  {
    if n < 10 then [('0' as int + n) as char]
    else DecimalString(n / 10) + [('0' as int + n % 10) as char]
  }

  /** A numeral denotes the number it was written for. */
  lemma {:induction false} DecimalValue(n: nat)
    ensures DigitsValue(DecimalString(n)) == n
  {
    var d := DecimalString(n);
    if n >= 10 {
      DecimalValue(n / 10);
      assert d[..|d| - 1] == DecimalString(n / 10);
    }
  }

  /** The digit prefix of digits followed by a non-digit is those digits. */
  lemma {:induction false} DigitPrefixOfDigits(ds: string, rest: string)
    requires AllDigits(ds)
    requires rest == "" || !IsDigit(rest[0])
    ensures DigitPrefix(ds + rest) == ds
  {
    if |ds| > 0 {
      assert (ds + rest)[1..] == ds[1..] + rest;
      DigitPrefixOfDigits(ds[1..], rest);
      assert [ds[0]] + ds[1..] == ds;
    } else {
      assert ds + rest == rest;
    }
  }

  /** A digit is neither white space nor a sign. */
  lemma DigitIsPlain(c: char)
    requires IsDigit(c)
    ensures !IsStrWhiteSpace(c) && c != '-' && c != '+'
  {
  }

  /** parseInt reads a numeral back, whatever non-digit text follows it. */
  lemma ParseDecimal(n: nat, rest: string)
    requires rest == "" || !IsDigit(rest[0])
    ensures ParseInt10(DecimalString(n) + rest) == Num(n)
  {
    var d := DecimalString(n);
    var s := d + rest;
    assert s[0] == d[0];
    DigitIsPlain(d[0]);
    TrimStartKeeps(s);
    assert Unsigned(s) == s;
    DigitPrefixOfDigits(d, rest);
    DecimalValue(n);
  }

  /** parseInt reads a minus sign and a numeral as the negated number. */
  lemma ParseNegativeDecimal(n: nat, rest: string)
    requires rest == "" || !IsDigit(rest[0])
    ensures ParseInt10("-" + DecimalString(n) + rest) == Num(-(n as int))
  {
    var d := DecimalString(n);
    var u := d + rest;
    var s := "-" + d + rest;
    assert s == ['-'] + u;
    assert s[0] == '-' && s[1..] == u;
    assert !IsStrWhiteSpace('-');
    TrimStartKeeps(s);
    assert Unsigned(s) == u;
    DigitPrefixOfDigits(d, rest);
    DecimalValue(n);
  }

  // ---------------------------------------------------------------------------
  // normalizePort

  /** `normalizePort(val)`: NaN keeps the string, a non-negative number is the port, a negative one is refused. */
  function NormalizePort(val: string): (p: Port)
    ensures p.PipeName? <==> !StartsNumber(TrimStart(val))
    ensures p.PipeName? ==> p.name == val
    ensures p.PortNumber? ==> ParseInt10(val) == Num(p.number)
    ensures p.Refused? ==> ParseInt10(val).Num? && ParseInt10(val).value < 0
  {
    match ParseInt10(val)
    case NaN => PipeName(val)
    case Num(v) => if v >= 0 then PortNumber(v) else Refused
  }

  /** A decimal port number, with or without trailing text, is that port. */
  lemma NormalizeDecimal(n: nat, rest: string)
    requires rest == "" || !IsDigit(rest[0])
    ensures NormalizePort(DecimalString(n) + rest) == PortNumber(n)
  {
    ParseDecimal(n, rest);
  }

  /** A negative number is refused. */
  lemma NormalizeNegative(n: nat, rest: string)
    requires n > 0
    requires rest == "" || !IsDigit(rest[0])
    ensures NormalizePort("-" + DecimalString(n) + rest) == Refused
  {
    ParseNegativeDecimal(n, rest);
  }

  /** With PORT unset the service listens on port 3000. */
  lemma DefaultPortIs3000()
    ensures NormalizePort(GetPort(None)) == PortNumber(3000)
  {
    assert DecimalString(3) == "3";
    assert DecimalString(30) == DecimalString(3) + "0";
    assert DecimalString(300) == DecimalString(30) + "0";
    assert DecimalString(3000) == DecimalString(300) + "0";
    assert DecimalString(3000) + "" == DefaultPort;
    NormalizeDecimal(3000, "");
  }

  /** A path such as a named pipe is kept as the string. */
  lemma PipePathKept()
    ensures NormalizePort("/tmp/auth.sock") == PipeName("/tmp/auth.sock")
  {
    assert !IsStrWhiteSpace('/');
  }
}
